=== FILE: README.md ===
# dbt2looker in Dafny

dbt2looker reads a dbt project's manifest and turns each dbt model into two
LookML files: a view file and a model file. The view file holds dimension
groups, dimensions, measures and a `details` drill set. The model file holds
a connection, an include and one explore with its joins.

This project models the part of the generator that builds those LookML
documents before they are serialised:

- the pydantic records of `dbt2looker/models.py` and their validators:
  - the adapter check;
  - the check that each measure filter names exactly one field;
  - the lower-casing of column names;
- the adapter type tables of `dbt2looker/generator.py` and the type lookup,
  including Spark's precision strip;
- the rules that sort columns into time dimension groups, scalar dimensions
  and measures;
- the defaults taken with Python's `or`, the description indentation, the
  drill set, and the view and explore records.

Modules, in dependency order:

| module | file | holds |
|---|---|---|
| `Wrappers` | wrappers.dfy | `Option`, `Result` |
| `Ascii` | ascii.dfy | `str.upper`, `str.lower`, `str.capitalize` on ASCII |
| `Dicts` | dicts.dfy | Python dicts as association lists: `d[k] = v`, `{**a, **b}`, dict comprehensions |
| `Comprehensions` | comprehensions.dfy | list comprehensions: `[f(x) for x in xs if p(x)]` and `[y for x in xs for y in f(x)]` |
| `Truthiness` | truthiness.dfy | `x or default` and `{...} if x else {}` for optional strings and lists |
| `Models` | models.dfy | the records and validators of `models.py` |
| `LookerTypes` | looker_types.dfy | `LOOKER_DTYPE_MAP`, the type lists, `map_adapter_type_to_looker` |
| `Descriptions` | descriptions.dfy | `indent_multiline_description` and its inverse |
| `Dimensions` | dimensions.dfy | dimension groups and dimensions |
| `Measures` | measures.dfy | the merged measure maps, filters and measures |
| `Views` | views.dfy | the drill set, the view file and the model file |

Conventions used throughout:

- A Python dict is a sequence of `(key, value)` pairs in insertion order:
  - `Dicts.Put` keeps an existing key where it is;
  - `Dicts.PutAll` is `{**a, **b}`;
  - `Dicts.LastValue` is the value a dict built from a list of items keeps under a key.
- A LookML attribute the generator adds only when it is set is an `Option` that is `None` when absent.
- Column dimensions and date groups exist only when enabled. `enabled` defaults to true, so date columns get a date group unless they opt out.
- `label` and `type` are reserved words in Dafny, so the fields are named `labelText`, `measureType`, `nativeType`, `joinType` and `groupType`.

## Model

| member | source | states |
|---|---|---|
| Models.ParseAdapter | dbt2looker/models.py:17-22 | the enum member found for a value has exactly that value, and every value of a member finds it |
| Models.MeasureTypeName | dbt2looker/models.py:26-41 | every measure type's value is a non-empty lower-case name starting with a letter |
| Models.DefaultMeasure | dbt2looker/models.py:87-100 | a measure declaring only its type: filters an empty list, description empty, every other attribute unset |
| Models.DefaultDimension | dbt2looker/models.py:111-130 | the default `dimension` block: enabled, description empty, every other attribute unset |
| Models.DefaultMeta | dbt2looker/models.py:133-138 | the default column `meta`: four empty measure maps and the default dimension |
| Models.DefaultJoin | dbt2looker/models.py:173-179 | a join to the named view: left outer, many-to-one, no condition, foreign key or view label |
| Models.AdapterMustBeSupported | dbt2looker/models.py:216-223 | accepts exactly the five adapter values and returns the value unchanged; otherwise fails with the message `<value> is not a supported dbt adapter` |
| Models.FiltersAreSingularDicts | dbt2looker/models.py:102-108 | for filters that are parsed dicts (distinct keys): passes the value through exactly when it is None or every filter has one entry; otherwise fails with the `Multiple filter names ...` error |
| Models.CaseFold | dbt2looker/models.py:206-211 | the comprehension over columns gives distinct keys, all lower case, exactly the lower-cased input keys in the order of their first occurrence, and under each key the renamed value of the LAST input column whose name lowers to it |
| Models.CaseFoldIdempotent | dbt2looker/models.py:206-211 | folding an already folded dict changes nothing, given an idempotent rename |
| Models.CaseInsensitiveColumnNames | dbt2looker/models.py:206-211 | a model's columns keyed and named in lower case, keys in the order of their first occurrence; when two names differ only in case, the last one wins |
| Models.CaseInsensitiveColumnNamesIdempotent | dbt2looker/models.py:206-211 | validating a model's columns twice gives the result of validating them once |
| Models.CatalogCaseInsensitiveColumnNames | dbt2looker/models.py:250-255 | the same rule for a catalog node's columns, keys in the order of their first occurrence |
| Models.CatalogCaseInsensitiveColumnNamesIdempotent | dbt2looker/models.py:250-255 | validating a catalog node's columns twice gives the result of validating them once |
| Dicts.PutAllSpec | dbt2looker/generator.py:386-388 | `{**a, **b}` has the union of the keys, keeps `a`'s keys first, keeps keys distinct, and holds `b`'s last value for a key `b` has and `a`'s value otherwise |
| Dicts.PutAllKeys | dbt2looker/generator.py:386-388 | `{**a, **b}` keeps `a`'s keys in place and appends `b`'s new keys in the order of their first occurrence |
| Dicts.AppendNewSnoc | dbt2looker/models.py:208-211 | a further key is appended when it is new and changes nothing when it is already present: a repeated key keeps the place of its first occurrence |
| Dicts.FromItemsSpec | dbt2looker/generator.py:376-379 | a dict comprehension has distinct keys, the same key set as its items, and the last value given for each key |
| Ascii.Capitalize | dbt2looker/generator.py:393 | first character upper-cased, the rest lower-cased, length unchanged |
| Ascii.LowerCapitalize | dbt2looker/generator.py:393 | lower-casing undoes `capitalize` on a string without capitals, so the generated description keeps the type's value |
| LookerTypes.NormaliseSparkTypes | dbt2looker/generator.py:201-202 | the result is the longest prefix with no `(`: a prefix, free of `(`, and either the whole string or cut just before a `(` |
| LookerTypes.NormaliseSparkTypesIdempotent | dbt2looker/generator.py:201-202 | stripping twice is stripping once |
| LookerTypes.NormaliseNoParen | dbt2looker/generator.py:201-202 | a type without `(` is left unchanged |
| LookerTypes.NormaliseDropsPrecision | dbt2looker/generator.py:201-202 | everything from the first `(` on is dropped |
| LookerTypes.NormaliseCommutesWithCase | dbt2looker/generator.py:201-211 | upper- or lower-casing before or after the strip gives the same key |
| LookerTypes.BigQueryKeysReachable | dbt2looker/generator.py:9-26 | every key of the BigQuery table has no lower-case letter and no `(` |
| LookerTypes.SnowflakeKeysReachable | dbt2looker/generator.py:27-60 | every key of the Snowflake table has no lower-case letter and no `(` |
| LookerTypes.RedshiftKeysReachable | dbt2looker/generator.py:61-97 | every key of the Redshift table has no lower-case letter and no `(` |
| LookerTypes.PostgresKeysReachable | dbt2looker/generator.py:98-161 | every key of the Postgres table has no lower-case letter and no `(` |
| LookerTypes.SparkKeysReachable | dbt2looker/generator.py:162-176 | every key of the Spark table has no lower-case letter and no `(` |
| LookerTypes.TableKeysReachable | dbt2looker/generator.py:8-177 | `LOOKER_DTYPE_MAP`: on every adapter, looking a table key up as written finds its own entry, so no entry is unreachable |
| LookerTypes.LookerTimeframes | dbt2looker/generator.py:183-198 | fourteen distinct, non-empty, lower-case timeframes, `raw` first |
| LookerTypes.MapAdapterTypeToLooker | dbt2looker/generator.py:210-216 | for a present type: some Looker type exactly when the adapter's table has the upper-cased key, Spark stripping the precision first, and then the table's entry |
| LookerTypes.MapAdapterTypeToLookerAsWritten | dbt2looker/generator.py:210-216 | the code as written: a missing type raises, and a present type maps as above |
| LookerTypes.MapColumnType | dbt2looker/generator.py:210-216 | the corrected lookup: a missing type maps to None; otherwise it agrees with the code as written wherever that does not raise |
| LookerTypes.UnsupportedTypeWarning | dbt2looker/generator.py:213-215 | a warning is given exactly for a present type that maps to nothing, with the source's message |
| LookerTypes.LookupIgnoresCase | dbt2looker/generator.py:211-212 | a type maps the same in upper, lower or mixed case |
| LookerTypes.SparkIgnoresPrecision | dbt2looker/generator.py:201-212 | on Spark, `t(p)` maps like `t` |
| LookerTypes.SparkDecimalIsNumber | dbt2looker/generator.py:162-176 | Spark `decimal(p,s)` is a number, whatever the precision and scale |
| LookerTypes.SnowflakeKeyOfNumberWithPrecision | dbt2looker/generator.py:211 | Snowflake looks up `NUMBER(38,0)` without stripping anything |
| LookerTypes.SnowflakeHasNoNumberWithPrecision | dbt2looker/generator.py:27-60 | Snowflake's table has no `NUMBER(38,0)` entry |
| LookerTypes.SnowflakeNumberWithPrecisionIsUnmapped | dbt2looker/generator.py:210-216 | Snowflake `NUMBER(38,0)` maps to nothing, since only Spark strips precision |
| LookerTypes.SparkDateIsDateTime | dbt2looker/generator.py:175 | Spark `date` is a datetime, not a date |
| LookerTypes.PostgresTimestampIsTimestamp | dbt2looker/generator.py:150 | Postgres `TIMESTAMP` is a timestamp |
| LookerTypes.MappedTypeIsQuiet | dbt2looker/generator.py:210-216 | a type that maps to a Looker type draws no warning, and the lookup as written gives the same type without raising |
| LookerTypes.NullTypeRaisesAsWritten | dbt2looker/generator.py:211 | a missing type raises in the code as written; the corrected lookup gives None and no warning |
| LookerTypes.TypeListsDisjoint | dbt2looker/generator.py:179-181 | the datetime, date and scalar type lists are disjoint and together cover every Looker type |
| Descriptions.UnindentIndent | dbt2looker/generator.py:206-207 | the indentation only inserts spaces after newlines; taking them out gives back the description |
| Descriptions.IndentMultilineDescription | dbt2looker/generator.py:206-207 | the indented text has exactly the newlines of the description |
| Descriptions.IndentedNewlines | dbt2looker/generator.py:206-207 | every newline of the result is followed by the requested number of spaces (`IndentedBy`) |
| Descriptions.IndentationDetermined | dbt2looker/generator.py:206-207 | a text indented throughout is the indentation of its unindented form, so `IndentedBy` and `Unindent` together fix the indented description |
| Descriptions.IndentSingleLine | dbt2looker/generator.py:206-207 | a description without a newline is unchanged |
| Dimensions.DimensionGroup | dbt2looker/generator.py:218-270 | a `time` group with the annotation's name or the column's, its sql or `${TABLE}.<column>`, its description or the column's, indented six spaces after every newline (`IndentedBy` and `Unindent`), the column's mapped type, its non-empty timeframes or the canonical 14, label and view label only when set, and `convert_tz` only when it is `no` |
| Dimensions.DateTimeGroups | dbt2looker/generator.py:274-278 | every group has a datetime or timestamp type, type `time` and timeframes |
| Dimensions.DateGroups | dbt2looker/generator.py:279-284 | every group has the date type, type `time` and timeframes |
| Dimensions.DateTimeGroupsSnoc | dbt2looker/generator.py:274-278 | a further column adds its group at the end exactly when its type is datetime or timestamp, whether or not it is enabled |
| Dimensions.DateGroupsSnoc | dbt2looker/generator.py:279-284 | a further column adds its group at the end exactly when it is enabled and of type date |
| Dimensions.DimensionGroupsFromModel | dbt2looker/generator.py:273-285 | the datetime groups, then the date groups, each block in column order; all groups are time groups with timeframes, of a datetime, timestamp or date type, and no date group precedes a datetime or timestamp group |
| Dimensions.GetOptionalDimensionFields | dbt2looker/generator.py:287-324 | each optional attribute is present exactly when the annotation sets it, with its value; the value format only on a number |
| Dimensions.IsDateTimeColumn | dbt2looker/generator.py:277 | a column that passes the datetime filter has a `data_type` |
| Dimensions.IsDateColumn | dbt2looker/generator.py:282-283 | an enabled date column has a `data_type` |
| Dimensions.IsScalarColumn | dbt2looker/generator.py:339-340 | an enabled scalar column has a `data_type` |
| Dimensions.IsScalarModelDimension | dbt2looker/generator.py:356 | a model-level dimension that passes the scalar filter has a `type` |
| Dimensions.QualifyingColumnsAreMapped | dbt2looker/generator.py:273-341 | a column that passes any of the three filters draws no warning, and the lookup as written gives its type without raising |
| Dimensions.QualifyingModelDimensionsAreMapped | dbt2looker/generator.py:356 | the same for a model-level dimension that passes the scalar filter |
| Dimensions.ColumnDimension | dbt2looker/generator.py:328-337 | name, sql and description default to the column's; the description is indented six spaces after every newline; the type is the column's mapped type; the optional attributes follow the column's annotation |
| Dimensions.ColumnDimensions | dbt2looker/generator.py:327-341 | at most one dimension per column, each of a number, yesno or string type |
| Dimensions.ColumnDimensionsSnoc | dbt2looker/generator.py:327-341 | a further column adds its dimension at the end exactly when it is enabled and scalar |
| Dimensions.ColumnYieldsAtMostOneField | dbt2looker/generator.py:273-341 | no column becomes two of a datetime group, a date group and a dimension |
| Dimensions.ModelDimension | dbt2looker/generator.py:345-354 | a model-level dimension keeps its own name, sql and description, the description indented six spaces after every newline, and its declared type is mapped |
| Dimensions.ModelDimensions | dbt2looker/generator.py:344-357 | at most one dimension per declaration, each of a scalar type |
| Dimensions.ModelDimensionsSnoc | dbt2looker/generator.py:344-357 | a further declaration adds its dimension exactly when its type is scalar; `enabled` is not consulted |
| Dimensions.DimensionsFromModel | dbt2looker/generator.py:326-358 | the column dimensions in column order, then the model-level ones in declaration order, all scalar, no more than columns plus declarations |
| Dimensions.UntypedFieldsAreSkipped | dbt2looker/generator.py:273-357 | a column without `data_type` and a model-level dimension without `type` raise in the lookup as written; with the corrected lookup they yield no group and no dimension |
| Dimensions.UnannotatedStringColumn | dbt2looker/generator.py:327-341 | an unannotated string column gives one dimension named after it, reading `${TABLE}.<column>`, with its description, no optional attribute and no group |
| Dimensions.CreatedAtTimestampGroup | dbt2looker/generator.py:218-244 | a Postgres `TIMESTAMP` column `created_at` gives one group with the canonical timeframes, type timestamp and no `convert_tz` |
| Measures.MergedMeasures | dbt2looker/generator.py:386-388 | every name from the four maps appears once; `metric` beats `metrics`, which beats `measure`, which beats `measures`; the keys are those of `measures` in order, then each new name of `measure`, `metrics` and `metric` in order of first appearance |
| Measures.LookmlMeasureFilters | dbt2looker/generator.py:376-379 | as many filters as given, each with distinct keys, the same names and the last expression per name; a filter that is already a dict is unchanged |
| Comprehensions.FlatMapAppend | dbt2looker/generator.py:383-389 | the nested comprehension over a concatenation of columns is the concatenation of the two results |
| Measures.MeasureFiltersOfValidated | dbt2looker/generator.py:376-379 | on filters that passed the validator, the rebuild is the identity |
| Measures.LookmlMeasureOf | dbt2looker/generator.py:392-415 | name and type as declared; sql or `${TABLE}.<column>`; description from the measure, else the column, else `<Type> of <column>`, indented six spaces after every newline; filters, label, group label, view label, hidden and drill fields only when set |
| Measures.ColumnMeasures | dbt2looker/generator.py:383-389 | one measure per merged name, in the merged order, names distinct and exactly those declared, each built from the winning declaration |
| Measures.MeasuresFromModel | dbt2looker/generator.py:382-389 | every measure is one of some column's measures |
| Measures.MeasuresFromModelSnoc | dbt2looker/generator.py:382-389 | a further column appends exactly its own measures |
| Measures.UnannotatedColumnHasNoMeasures | dbt2looker/generator.py:386-388 | a column without measure maps contributes nothing |
| Measures.DefaultMetaHasNoMeasures | dbt2looker/models.py:133-138 | a column whose `meta` is left at its default contributes no merged name and no measure |
| Measures.DefaultMeasureOnlyRequiredKeys | dbt2looker/generator.py:392-415 | a measure declaring only its type emits only name, type, `${TABLE}.<column>` and description; its empty filter list is falsy, so no `filters` |
| Measures.DefaultMeasureDescription | dbt2looker/generator.py:393 | the generated description starts with a capital, its first word lower-cased is the type's value, and it ends ` of <column>` |
| Measures.OnlyMeasure | dbt2looker/generator.py:386-388 | a single declaration under `measures` gives exactly that measure |
| Measures.MetricOverridesMeasures | dbt2looker/generator.py:386-388 | the same name under `measures` and `metric` gives one measure, built from `metric` |
| Measures.MeasuresOfTwoColumns | dbt2looker/generator.py:383-389 | two columns give the first column's measures followed by the second's |
| Measures.SameNameOnTwoColumns | dbt2looker/generator.py:383-389 | a name used on two columns gives two measures; names are not made unique across columns |
| Measures.SumDescription | dbt2looker/generator.py:393-399 | the generated description of a `sum` on `amount` is `Sum of amount` |
| Measures.CapitalizeSum | dbt2looker/generator.py:393 | `sum` capitalises to `Sum` |
| Measures.UndescribedMeasure | dbt2looker/generator.py:393-399 | a measure with no description on a column with none is described `<Type> of <column>`, indented |
| Measures.SumOfAmount | dbt2looker/generator.py:392-402 | an undescribed `sum` on `amount` reads `${TABLE}.amount`, is described `Sum of amount` and has no filters |
| Views.VisibleDimensionNames | dbt2looker/generator.py:422-425 | a name is listed exactly when some dimension without a `hidden` attribute carries it |
| Views.VisibleDimensionNamesSnoc | dbt2looker/generator.py:422-425 | a further dimension adds its name at the end exactly when it has no `hidden` attribute, so order and repeats are kept |
| Views.GroupDrillField | dbt2looker/generator.py:419 | the group's name, `_`, then its first timeframe, each recoverable from the result |
| Views.DefaultGroupDrillsAtRaw | dbt2looker/generator.py:419 | a group with the canonical timeframes drills at `<name>_raw` |
| Views.LookmlSetOfDimensions | dbt2looker/generator.py:417-429 | the set `details` lists each dimension group at its first timeframe, in order, then the visible dimension names in dimension order |
| Views.HiddenNoLeavesSet | dbt2looker/generator.py:424 | a dimension marked `hidden: no` is still left out of the drill set |
| Views.ViewName | dbt2looker/generator.py:433 | the configured view name when set, else the model's name |
| Views.LookmlViewFromDbtModel | dbt2looker/generator.py:432-457 | the file `<view name>.view.lkml` with the model's relation, `[details*]`, its groups, dimensions, measures and their drill set |
| Views.DrillSetNamesViewFields | dbt2looker/generator.py:417-446 | every drill-set entry names a group of the view at its first timeframe or a visible dimension of the view |
| Views.LookmlJoinOf | dbt2looker/generator.py:481-488 | a join carries the configured name, type, relationship, sql_on, foreign key and view label |
| Views.LookmlJoinsAsWritten | dbt2looker/generator.py:480-490 | the code as written: succeeds exactly when there are no joins |
| Views.LookmlJoins | dbt2looker/generator.py:480-490 | the corrected joins: one per configured join, in order, with its foreign key |
| Views.LookmlExploreOf | dbt2looker/generator.py:463-490 | the explore is named after the view; label and view label only when set; a description, indented four spaces after every newline, exactly when the model has one; the corrected joins |
| Views.LookmlModelFromDbtModel | dbt2looker/generator.py:460-494 | the file `<view name>.model.lkml` for the connection, including `/views/*`, holding that explore |
| Views.LookmlModelFromDbtModelAsWritten | dbt2looker/generator.py:460-494 | the code as written: a model file exactly when no join is configured |
| Views.JoinTypoOnlyMattersWithJoins | dbt2looker/generator.py:486 | without joins the written and corrected model files agree; with any join the written one raises `AttributeError` |
| Views.OneJoinRaises | dbt2looker/generator.py:480-490 | one default join to `customers` raises as written, and as corrected gives a left outer, many-to-one join |
| Views.ExploreNamesTheView | dbt2looker/generator.py:433-468 | the explore of a model's file names the view of its view file |

## Left out

- `lkml.dump` is not part of this model. The file records carry the LookML tree instead of its serialised text.
- Logging is left out:
  - the unsupported-type warning is returned by `LookerTypes.UnsupportedTypeWarning` instead of logged;
  - the debug line of the view builder is dropped.
- pydantic parsing is not modelled: coercion, the `schema` alias, `Literal['model']`, and the `Union` over manifest nodes.
  The records take already-parsed values.
- An explicit `null` is not modelled for these fields:
  - a description (`Optional[str] = ''`) is a plain string;
  - `enabled` is a plain boolean;
  - the four measure maps and the `dimension` block are always present;
  - the model meta's `joins` and `dimensions` lists (`Optional[List[...]] = []`, dbt2looker/models.py:183 and :187) are plain sequences; an explicit null makes the source raise `TypeError` where it iterates them (dbt2looker/generator.py:355 and :489);
  - a join's `type` and `relationship` (dbt2looker/models.py:175-176) are plain enum values; an explicit null makes the source raise `AttributeError` on `.value` (dbt2looker/generator.py:483-484).
- Unicode case mapping is left out: `upper`, `lower` and `capitalize` change ASCII letters only.
- The merge with the catalog and the CLI that reads and writes files are not part of this model.
- The filter check commented out in `lookml_measure_filters` is not modelled. Its unused `model` parameter is dropped.
- Views.LookmlViewFromDbtModel, Views.LookmlModelFromDbtModel, Views.LookmlModelFromDbtModelAsWritten, Views.LookmlExploreOf, Views.ViewName and Dimensions.DimensionsFromModel: these require a model config with a `meta` block. The source dereferences `model.config.meta` without a check, and raises when either is null.
- Dimensions.ModelDimension, Dimensions.ModelDimensions, Dimensions.DimensionsFromModel, Views.LookmlViewFromDbtModel, Views.DrillSetNamesViewFields and Views.ExploreNamesTheView: these require a name and a sql expression on every emitted model-level dimension (the last four through `Dimensions.DimensionsAvailable`). The source would pass a null through to `lkml.dump`, which is not modelled.
- Views.LookmlSetOfDimensions: this requires every group to have a timeframe. Every group the generator builds does.
- An enum's `.value` is kept as the enum itself, except where the text matters: `Models.MeasureTypeName` spells out a measure type for the generated description, and `Models.AdapterName` spells out an adapter for `Models.ParseAdapter` and the unsupported-type warning. Looker field types stay enum values.
- Dimensions.DimensionGroupsFromModel, Dimensions.DateTimeGroups, Dimensions.DateGroups, Dimensions.DimensionsFromModel, Dimensions.ColumnDimensions, Dimensions.ModelDimensions, Dimensions.DimensionGroup, Dimensions.ColumnDimension, Dimensions.ModelDimension and Views.LookmlViewFromDbtModel use the corrected type lookup `LookerTypes.MapColumnType`. Where the source raises on a column without `data_type` or a model-level dimension without `type`, these skip the field (first row of the findings).
- Models.FiltersAreSingularDicts: this requires each filter's keys to be distinct. The validator receives parsed dicts, whose keys always are.

## Findings

| source | as written | input that shows it | evidently intended | confidence | as-written member | corrected member |
|---|---|---|---|---|---|---|
| dbt2looker/generator.py:211 | `.upper()` (or, on Spark, the regular expression) is applied to the column type before the `column_type is not None` guard, so a column without `data_type` raises, and so does a model-level dimension without `type` (its default), looked up at line 356; `Dimensions.UntypedFieldsAreSkipped` shows both | any adapter, a column whose `data_type` is null, or a `meta.dimensions` entry with no `type` | a missing type maps to None with no warning, as the guard on line 213 implies | not executed; high | LookerTypes.MapAdapterTypeToLookerAsWritten | LookerTypes.MapColumnType |
| dbt2looker/generator.py:486 | the join reads `join.foreig_key`, an attribute no join has, so any configured join raises `AttributeError` | a model whose `meta.joins` lists `{join: customers}` | the join's `foreign_key` is copied | not executed; high | Views.LookmlModelFromDbtModelAsWritten | Views.LookmlModelFromDbtModel |

=== FILE: ascii.dfy ===
/**
 * The Python `str` operations the generator relies on (`upper`, `lower`,
 * `capitalize`), restricted to ASCII: only the letters `a`-`z` and `A`-`Z`
 * change case, every other character is left alone.
 */
module Ascii {

  predicate IsUpperChar(c: char) { 'A' <= c <= 'Z' }
  predicate IsLowerChar(c: char) { 'a' <= c <= 'z' }

  function UpperChar(c: char): char {
    if IsLowerChar(c) then (c as int - 32) as char else c
  }

  function LowerChar(c: char): char {
    if IsUpperChar(c) then (c as int + 32) as char else c
  }

  /** `s.upper()` */
  function Upper(s: string): (r: string)
    ensures |r| == |s|
    ensures forall i :: 0 <= i < |s| ==> r[i] == UpperChar(s[i])
  {
    if s == [] then [] else [UpperChar(s[0])] + Upper(s[1..])
  }

  /** `s.lower()` */
  function Lower(s: string): (r: string)
    ensures |r| == |s|
    ensures forall i :: 0 <= i < |s| ==> r[i] == LowerChar(s[i])
  {
    if s == [] then [] else [LowerChar(s[0])] + Lower(s[1..])
  }

  /** No upper-case letter occurs in `s`. */
  predicate IsLower(s: string) {
    forall i :: 0 <= i < |s| ==> !IsUpperChar(s[i])
  }

  /** No lower-case letter occurs in `s`. */
  predicate HasNoLower(s: string) {
    forall i :: 0 <= i < |s| ==> !IsLowerChar(s[i])
  }

  /** Upper-casing leaves a string without lower-case letters unchanged. */
  lemma UpperOfNoLower(s: string)
    requires HasNoLower(s)
    ensures Upper(s) == s
  {
    assert forall i :: 0 <= i < |s| ==> Upper(s)[i] == s[i];
  }

  /** `s.capitalize()`: the first character upper-cased, the rest lower-cased. */
  function Capitalize(s: string): (r: string)
    ensures |r| == |s|
    ensures |s| > 0 ==> r[0] == UpperChar(s[0]) && r[1..] == Lower(s[1..])
  {
    if s == [] then [] else [UpperChar(s[0])] + Lower(s[1..])
  }

  /** Lower-casing produces a lower-case string and leaves lower-case strings unchanged. */
  lemma LowerIsLower(s: string)
    ensures IsLower(Lower(s))
    ensures IsLower(s) ==> Lower(s) == s
  {
    if IsLower(s) {
      assert forall i :: 0 <= i < |s| ==> Lower(s)[i] == s[i];
    }
  }

  /** Lower-casing undoes `capitalize` on a string without upper-case letters. */
  lemma LowerCapitalize(s: string)
    requires IsLower(s)
    ensures Lower(Capitalize(s)) == s
  {
    if s != [] {
      LowerIsLower(s[1..]);
      LowerIdempotent(s[1..]);
      assert Lower(Capitalize(s))[0] == s[0];
      assert Lower(Capitalize(s))[1..] == Lower(Lower(s[1..]));
    }
  }

  /** `lower` is idempotent. */
  lemma LowerIdempotent(s: string)
    ensures Lower(Lower(s)) == Lower(s)
  {
    LowerIsLower(s);
    LowerIsLower(Lower(s));
  }

  /** Upper-casing ignores a prior change of case: the lookup key of a type name
      is the same whatever case the name was written in. */
  lemma UpperIgnoresCase(s: string)
    ensures Upper(Lower(s)) == Upper(s)
    ensures Upper(Upper(s)) == Upper(s)
  {
    assert forall i :: 0 <= i < |s| ==> Upper(Lower(s))[i] == Upper(s)[i];
    assert forall i :: 0 <= i < |s| ==> Upper(Upper(s))[i] == Upper(s)[i];
  }
}

=== FILE: comprehensions.dfy ===
/** Python list comprehensions over sequences. */
module Comprehensions {

  /** A filtered list comprehension, `[build(x) for x in xs if keep(x)]`. */
  function Collect<T, U>(xs: seq<T>, keep: T -> bool, build: T --> U): (r: seq<U>)
    requires forall i :: 0 <= i < |xs| && keep(xs[i]) ==> build.requires(xs[i])
    ensures |r| <= |xs|
    decreases |xs|
  {
    if xs == [] then []
    else (if keep(xs[0]) then [build(xs[0])] else []) + Collect(xs[1..], keep, build)
  }

  /** Every element of the comprehension is the image of a kept element. */
  lemma {:induction false} CollectSource<T, U>(xs: seq<T>, keep: T -> bool, build: T --> U)
    requires forall i :: 0 <= i < |xs| && keep(xs[i]) ==> build.requires(xs[i])
    ensures forall k :: 0 <= k < |Collect(xs, keep, build)| ==>
      exists i :: 0 <= i < |xs| && keep(xs[i]) && Collect(xs, keep, build)[k] == build(xs[i])
    decreases |xs|
  {
    if xs == [] {
      assert Collect(xs, keep, build) == [];
    } else {
      var rest := Collect(xs[1..], keep, build);
      CollectSource(xs[1..], keep, build);
      var head := if keep(xs[0]) then [build(xs[0])] else [];
      var r := Collect(xs, keep, build);
      assert r == head + rest;
      forall k | 0 <= k < |Collect(xs, keep, build)|
        ensures exists i :: 0 <= i < |xs| && keep(xs[i]) && Collect(xs, keep, build)[k] == build(xs[i])
      {
        if k < |head| {
          assert 0 < |xs| && keep(xs[0]) && r[k] == build(xs[0]);
        } else {
          assert r[k] == rest[k - |head|];
          var i :| 0 <= i < |xs[1..]| && keep(xs[1..][i]) && rest[k - |head|] == build(xs[1..][i]);
          assert xs[1..][i] == xs[i + 1];
          assert 0 <= i + 1 < |xs| && keep(xs[i + 1]) && r[k] == build(xs[i + 1]);
        }
      }
    }
  }

  /** The image of every kept element is in the comprehension. */
  lemma {:induction false} CollectComplete<T, U>(xs: seq<T>, keep: T -> bool, build: T --> U)
    requires forall i :: 0 <= i < |xs| && keep(xs[i]) ==> build.requires(xs[i])
    ensures forall i :: 0 <= i < |xs| && keep(xs[i]) ==> build(xs[i]) in Collect(xs, keep, build)
    decreases |xs|
  {
    if xs != [] {
      CollectComplete(xs[1..], keep, build);
      var head := if keep(xs[0]) then [build(xs[0])] else [];
      var rest := Collect(xs[1..], keep, build);
      assert Collect(xs, keep, build) == head + rest;
      forall i | 0 <= i < |xs| && keep(xs[i])
        ensures build(xs[i]) in Collect(xs, keep, build)
      {
        if i == 0 {
          assert build(xs[0]) == (head + rest)[0];
        } else {
          assert xs[1..][i - 1] == xs[i];
          assert build(xs[i]) in rest;
        }
      }
    }
  }

  /** Appending an element appends its image exactly when it is kept. */
  lemma {:induction false} CollectSnoc<T, U>(xs: seq<T>, x: T, keep: T -> bool, build: T --> U)
    requires forall i :: 0 <= i < |xs| && keep(xs[i]) ==> build.requires(xs[i])
    requires keep(x) ==> build.requires(x)
    ensures forall i :: 0 <= i < |xs + [x]| && keep((xs + [x])[i]) ==> build.requires((xs + [x])[i])
    ensures Collect(xs + [x], keep, build) == Collect(xs, keep, build) + (if keep(x) then [build(x)] else [])
    decreases |xs|
  {
    var s := xs + [x];
    forall i | 0 <= i < |s| && keep(s[i]) ensures build.requires(s[i]) {
      if i < |xs| {
        assert s[i] == xs[i];
      } else {
        assert s[i] == x;
      }
    }
    if xs == [] {
      assert s == [x] && s[1..] == [];
      assert Collect(s, keep, build) == (if keep(x) then [build(x)] else []) + Collect(s[1..], keep, build);
    } else {
      assert s[0] == xs[0];
      assert s[1..] == xs[1..] + [x];
      assert forall i :: 0 <= i < |xs[1..]| ==> xs[1..][i] == xs[i + 1];
      CollectSnoc(xs[1..], x, keep, build);
      var head := if keep(xs[0]) then [build(xs[0])] else [];
      assert Collect(s, keep, build) == head + Collect(s[1..], keep, build);
      assert Collect(xs, keep, build) == head + Collect(xs[1..], keep, build);
    }
  }

  /** A nested comprehension, `[y for x in xs for y in f(x)]`. */
  function FlatMap<T, U>(xs: seq<T>, f: T -> seq<U>): seq<U>
    decreases |xs|
  {
    if xs == [] then [] else f(xs[0]) + FlatMap(xs[1..], f)
  }

  /** Every element of a nested comprehension comes from one of the inner lists. */
  lemma {:induction false} FlatMapSource<T, U>(xs: seq<T>, f: T -> seq<U>)
    ensures forall k :: 0 <= k < |FlatMap(xs, f)| ==>
      exists i :: 0 <= i < |xs| && FlatMap(xs, f)[k] in f(xs[i])
    decreases |xs|
  {
    if xs == [] {
      assert FlatMap(xs, f) == [];
    } else {
      var head := f(xs[0]);
      var rest := FlatMap(xs[1..], f);
      FlatMapSource(xs[1..], f);
      var r := FlatMap(xs, f);
      assert r == head + rest;
      forall k | 0 <= k < |FlatMap(xs, f)|
        ensures exists i :: 0 <= i < |xs| && FlatMap(xs, f)[k] in f(xs[i])
      {
        if k < |head| {
          assert 0 < |xs| && r[k] in f(xs[0]);
        } else {
          assert r[k] == rest[k - |head|];
          var i :| 0 <= i < |xs[1..]| && rest[k - |head|] in f(xs[1..][i]);
          assert xs[1..][i] == xs[i + 1];
          assert 0 <= i + 1 < |xs| && r[k] in f(xs[i + 1]);
        }
      }
    }
  }

  /** Appending an element appends its inner list. */
  lemma {:induction false} FlatMapSnoc<T, U>(xs: seq<T>, x: T, f: T -> seq<U>)
    ensures FlatMap(xs + [x], f) == FlatMap(xs, f) + f(x)
  {
    FlatMapAppend(xs, [x], f);
    assert [x][1..] == [];
  }

  /** A nested comprehension over a concatenation is the concatenation of
      the two comprehensions. */
  lemma {:induction false} FlatMapAppend<T, U>(xs: seq<T>, ys: seq<T>, f: T -> seq<U>)
    ensures FlatMap(xs + ys, f) == FlatMap(xs, f) + FlatMap(ys, f)
    decreases |xs|
  {
    if xs == [] {
      assert xs + ys == ys;
    } else {
      assert (xs + ys)[0] == xs[0] && (xs + ys)[1..] == xs[1..] + ys;
      FlatMapAppend(xs[1..], ys, f);
    }
  }
}

=== FILE: descriptions.dfy ===
/**
 * `indent_multiline_description`: descriptions are written into nested
 * LookML blocks, so every line after the first is pushed right by a fixed
 * number of spaces (6 for fields, 4 for an explore).
 */
module Descriptions {

  function Spaces(n: nat): (r: string)
    ensures |r| == n && forall i :: 0 <= i < n ==> r[i] == ' '
  {
    seq(n, _ => ' ')
  }

  /** The number of newlines in `s`. */
  function Newlines(s: string): nat {
    if s == [] then 0 else (if s[0] == '\n' then 1 else 0) + Newlines(s[1..])
  }

  /** `description.replace('\n', '\n' + ' ' * spaceCount)`: the newlines are
      kept, each followed by `spaceCount` spaces (`IndentedNewlines`), and the
      rest of the text is unchanged (`UnindentIndent`). */
  function IndentMultilineDescription(description: string, spaceCount: nat): (r: string)
    ensures Newlines(r) == Newlines(description)
  {
    if description == [] then []
    else if description[0] == '\n' then
      NewlinesAfterNewline(IndentMultilineDescription(description[1..], spaceCount), spaceCount);
      "\n" + Spaces(spaceCount) + IndentMultilineDescription(description[1..], spaceCount)
    else
      NewlinesAppend([description[0]], IndentMultilineDescription(description[1..], spaceCount));
      [description[0]] + IndentMultilineDescription(description[1..], spaceCount)
  }

  lemma {:induction false} NewlinesAppend(a: string, b: string)
    ensures Newlines(a + b) == Newlines(a) + Newlines(b)
  {
    if a != [] {
      assert (a + b)[0] == a[0] && (a + b)[1..] == a[1..] + b;
      NewlinesAppend(a[1..], b);
    } else {
      assert a + b == b;
    }
  }

  lemma NewlinesAfterNewline(rest: string, spaceCount: nat)
    ensures Newlines("\n" + Spaces(spaceCount) + rest) == 1 + Newlines(rest)
  {
    NewlinesAppend("\n" + Spaces(spaceCount), rest);
    NewlinesAppend("\n", Spaces(spaceCount));
    NewlinesOfSpaces(spaceCount);
  }

  lemma {:induction false} NewlinesOfSpaces(n: nat)
    ensures Newlines(Spaces(n)) == 0
  {
    if n > 0 {
      assert Spaces(n)[1..] == Spaces(n - 1);
      NewlinesOfSpaces(n - 1);
    }
  }

  /** Removes `spaceCount` spaces after every newline that is followed by at
      least that many: the inverse of the indentation. */
  function Unindent(text: string, spaceCount: nat): string
    decreases |text|
  {
    if text == [] then []
    else if text[0] == '\n' && Spaces(spaceCount) <= text[1..] then "\n" + Unindent(text[1 + spaceCount..], spaceCount)
    else [text[0]] + Unindent(text[1..], spaceCount)
  }

  /** The indentation only inserts spaces after newlines: taking them out again
      gives back the original description. */
  lemma {:induction false} UnindentIndent(description: string, spaceCount: nat)
    ensures Unindent(IndentMultilineDescription(description, spaceCount), spaceCount) == description
  {
    if description != [] {
      var rest := IndentMultilineDescription(description[1..], spaceCount);
      UnindentIndent(description[1..], spaceCount);
      assert description == [description[0]] + description[1..];
      if description[0] == '\n' {
        IndentNewline(description[1..], spaceCount);
        UnindentNewline(rest, spaceCount);
      } else {
        IndentOther(description[0], description[1..], spaceCount);
        UnindentOther(description[0], rest, spaceCount);
      }
    }
  }

  lemma IndentNewline(u: string, spaceCount: nat)
    ensures IndentMultilineDescription("\n" + u, spaceCount) == "\n" + Spaces(spaceCount) + IndentMultilineDescription(u, spaceCount)
  {
    assert ("\n" + u)[0] == '\n' && ("\n" + u)[1..] == u;
  }

  lemma IndentOther(c: char, u: string, spaceCount: nat)
    requires c != '\n'
    ensures IndentMultilineDescription([c] + u, spaceCount) == [c] + IndentMultilineDescription(u, spaceCount)
  {
    assert ([c] + u)[0] == c && ([c] + u)[1..] == u;
  }

  lemma UnindentNewline(rest: string, spaceCount: nat)
    ensures Unindent("\n" + Spaces(spaceCount) + rest, spaceCount) == "\n" + Unindent(rest, spaceCount)
  {
    var text := "\n" + Spaces(spaceCount) + rest;
    assert text[1..] == Spaces(spaceCount) + rest;
    assert Spaces(spaceCount) <= text[1..];
    assert text[1 + spaceCount..] == rest;
  }

  lemma UnindentOther(c: char, rest: string, spaceCount: nat)
    requires c != '\n'
    ensures Unindent([c] + rest, spaceCount) == [c] + Unindent(rest, spaceCount)
  {
    assert ([c] + rest)[0] == c && ([c] + rest)[1..] == rest;
  }

  /** Every newline of `text` is followed by at least `spaceCount` spaces. */
  predicate IndentedBy(text: string, spaceCount: nat) {
    forall i :: 0 <= i < |text| && text[i] == '\n' ==> Spaces(spaceCount) <= text[i + 1..]
  }

  /** Every newline of the indented text is followed by `spaceCount` spaces. */
  lemma {:induction false} IndentedNewlines(description: string, spaceCount: nat)
    ensures IndentedBy(IndentMultilineDescription(description, spaceCount), spaceCount)
  {
    if description != [] {
      IndentedNewlines(description[1..], spaceCount);
      var rest := IndentMultilineDescription(description[1..], spaceCount);
      assert description == [description[0]] + description[1..];
      if description[0] == '\n' {
        IndentNewline(description[1..], spaceCount);
        IndentedAfterNewline(rest, spaceCount);
      } else {
        IndentOther(description[0], description[1..], spaceCount);
        IndentedAfterOther(description[0], rest, spaceCount);
      }
    }
  }

  lemma IndentedAfterNewline(rest: string, spaceCount: nat)
    requires IndentedBy(rest, spaceCount)
    ensures IndentedBy("\n" + Spaces(spaceCount) + rest, spaceCount)
  {
    var r := "\n" + Spaces(spaceCount) + rest;
    forall i | 0 <= i < |r| && r[i] == '\n'
      ensures Spaces(spaceCount) <= r[i + 1..]
    {
      if i == 0 {
        assert r[1..] == Spaces(spaceCount) + rest;
      } else {
        assert i > spaceCount;
        var j := i - 1 - spaceCount;
        assert rest[j] == '\n';
        assert r[i + 1..] == rest[j + 1..];
      }
    }
  }

  lemma IndentedAfterOther(c: char, rest: string, spaceCount: nat)
    requires c != '\n' && IndentedBy(rest, spaceCount)
    ensures IndentedBy([c] + rest, spaceCount)
  {
    var r := [c] + rest;
    forall i | 0 <= i < |r| && r[i] == '\n'
      ensures Spaces(spaceCount) <= r[i + 1..]
    {
      assert rest[i - 1] == '\n';
      assert r[i + 1..] == rest[i..];
    }
  }

  /** Every suffix of an indented text is indented. */
  lemma IndentedSuffix(text: string, spaceCount: nat, k: nat)
    requires IndentedBy(text, spaceCount) && k <= |text|
    ensures IndentedBy(text[k..], spaceCount)
  {
    var rest := text[k..];
    forall i | 0 <= i < |rest| && rest[i] == '\n'
      ensures Spaces(spaceCount) <= rest[i + 1..]
    {
      assert text[k + i] == '\n';
      assert rest[i + 1..] == text[k + i + 1..];
    }
  }

  /** A text indented throughout is the indentation of its unindented form,
      so `IndentedBy` and `Unindent` together pin the indented text down. */
  lemma {:induction false} IndentationDetermined(text: string, spaceCount: nat)
    requires IndentedBy(text, spaceCount)
    ensures IndentMultilineDescription(Unindent(text, spaceCount), spaceCount) == text
    decreases |text|
  {
    if text != [] {
      if text[0] == '\n' {
        assert Spaces(spaceCount) <= text[1..];
        var rest := text[1 + spaceCount..];
        IndentedSuffix(text, spaceCount, 1 + spaceCount);
        IndentationDetermined(rest, spaceCount);
        assert text == "\n" + Spaces(spaceCount) + rest by {
          assert text[1..1 + spaceCount] == Spaces(spaceCount);
          assert text == text[..1] + text[1..1 + spaceCount] + rest;
        }
        UnindentNewline(rest, spaceCount);
        IndentNewline(Unindent(rest, spaceCount), spaceCount);
      } else {
        var rest := text[1..];
        IndentedSuffix(text, spaceCount, 1);
        IndentationDetermined(rest, spaceCount);
        assert text == [text[0]] + rest;
        UnindentOther(text[0], rest, spaceCount);
        IndentOther(text[0], Unindent(rest, spaceCount), spaceCount);
      }
    }
  }

  /** A single-line description is left as it is. */
  lemma {:induction false} IndentSingleLine(description: string, spaceCount: nat)
    requires '\n' !in description
    ensures IndentMultilineDescription(description, spaceCount) == description
  {
    if description != [] {
      assert description[0] in description;
      assert forall c :: c in description[1..] ==> c in description;
      IndentSingleLine(description[1..], spaceCount);
    }
  }
}

=== FILE: dicts.dfy ===
/**
 * Python `dict` semantics on association lists. A dict is a sequence of
 * (key, value) items in insertion order whose keys are distinct. Assigning to
 * a key that is already present keeps the key at the position of its first
 * insertion and replaces its value; a new key goes to the end. Dict merges
 * `{**a, **b}` and dict comprehensions are sequences of such assignments.
 */
module Dicts {
  import opened Wrappers

  type Dict<V> = seq<(string, V)>

  /** `list(d.keys())` */
  function Keys<V>(d: Dict<V>): (ks: seq<string>)
    ensures |ks| == |d|
    ensures forall i :: 0 <= i < |d| ==> ks[i] == d[i].0
  {
    seq(|d|, i requires 0 <= i < |d| => d[i].0)
  }

  /** The items really form a dict: no key occurs twice. */
  predicate UniqueKeys<V>(d: Dict<V>) {
    forall i, j :: 0 <= i < j < |d| ==> d[i].0 != d[j].0
  }

  /** `d.get(k)`: the value stored under `k` (the first item with that key). */
  function Get<V>(d: Dict<V>, k: string): Option<V> {
    if d == [] then None
    else if d[0].0 == k then Some(d[0].1)
    else Get(d[1..], k)
  }

  /** The value the LAST item with key `k` carries: what a dict built from
      `items` keeps under `k` ("last write wins"). */
  function LastValue<V>(items: Dict<V>, k: string): Option<V> {
    if items == [] then None
    else match LastValue(items[1..], k)
      case Some(v) => Some(v)
      case None => if items[0].0 == k then Some(items[0].1) else None
  }

  /** `d[k] = v` on a copy of `d`. */
  function Put<V>(d: Dict<V>, k: string, v: V): Dict<V> {
    if d == [] then [(k, v)]
    else if d[0].0 == k then [(k, v)] + d[1..]
    else [d[0]] + Put(d[1..], k, v)
  }

  /** `{**a, **b}`: the items of `b` assigned one by one into a copy of `a`. */
  function PutAll<V>(a: Dict<V>, b: Dict<V>): Dict<V>
    decreases |b|
  {
    if b == [] then a else PutAll(Put(a, b[0].0, b[0].1), b[1..])
  }

  /** A dict comprehension `{k: v for (k, v) in items}`. */
  function FromItems<V>(items: Dict<V>): Dict<V> {
    PutAll([], items)
  }

  lemma {:induction false} GetMissing<V>(d: Dict<V>, k: string)
    ensures Get(d, k).None? <==> k !in Keys(d)
  {
    if d != [] {
      GetMissing(d[1..], k);
      assert Keys(d) == [d[0].0] + Keys(d[1..]);
    }
  }

  /** Assigning a key: the key set grows by `k` and the old keys keep their
      positions. */
  lemma {:induction false} PutKeys<V>(d: Dict<V>, k: string, v: V)
    ensures k in Keys(d) ==> Keys(Put(d, k, v)) == Keys(d)
    ensures k !in Keys(d) ==> Keys(Put(d, k, v)) == Keys(d) + [k]
  {
    if d == [] {
      assert Keys(Put(d, k, v)) == [k];
    } else {
      KeysCons(d[0], d[1..]);
      assert [d[0]] + d[1..] == d;
      if d[0].0 == k {
        KeysCons((k, v), d[1..]);
        assert k in Keys(d);
      } else {
        PutKeys(d[1..], k, v);
        KeysCons(d[0], Put(d[1..], k, v));
        assert k in Keys(d) <==> k in Keys(d[1..]);
        if k !in Keys(d) {
          assert [d[0].0] + (Keys(d[1..]) + [k]) == ([d[0].0] + Keys(d[1..])) + [k];
        }
      }
    }
  }

  lemma KeysCons<V>(p: (string, V), d: Dict<V>)
    ensures Keys([p] + d) == [p.0] + Keys(d)
  {
  }

  /** Assigning a key: `k` now holds `v`, every other key keeps its value. */
  lemma {:induction false} PutGet<V>(d: Dict<V>, k: string, v: V)
    ensures Get(Put(d, k, v), k) == Some(v)
    ensures forall j :: j != k ==> Get(Put(d, k, v), j) == Get(d, j)
  {
    if d != [] {
      PutGet(d[1..], k, v);
    }
  }

  /** Assigning a key keeps the keys distinct. */
  lemma PutUnique<V>(d: Dict<V>, k: string, v: V)
    requires UniqueKeys(d)
    ensures UniqueKeys(Put(d, k, v))
  {
    var p := Put(d, k, v);
    PutKeys(d, k, v);
    forall i, j | 0 <= i < j < |p| ensures p[i].0 != p[j].0 {
      assert Keys(p)[i] == p[i].0 && Keys(p)[j] == p[j].0;
      if k !in Keys(d) && j == |d| {
        assert p[i].0 == Keys(d)[i];
      }
    }
  }

  /** Assigning a key: the key set grows by `k`, the old keys keep their
      positions, `k` now holds `v`, every other key keeps its value, and the
      keys stay distinct. */
  lemma PutSpec<V>(d: Dict<V>, k: string, v: V)
    ensures k in Keys(d) ==> Keys(Put(d, k, v)) == Keys(d)
    ensures k !in Keys(d) ==> Keys(Put(d, k, v)) == Keys(d) + [k]
    ensures Get(Put(d, k, v), k) == Some(v)
    ensures forall j :: j != k ==> Get(Put(d, k, v), j) == Get(d, j)
    ensures UniqueKeys(d) ==> UniqueKeys(Put(d, k, v))
  {
    PutKeys(d, k, v);
    PutGet(d, k, v);
    if UniqueKeys(d) {
      PutUnique(d, k, v);
    }
  }

  /** `{**a, **b}`: keys of `a` keep their order and come first, the key set is
      the union, keys stay distinct, and a key holds `b`'s value when `b` has
      it (the last one `b` assigns) and `a`'s value otherwise. */
  lemma PutAllSpec<V>(a: Dict<V>, b: Dict<V>)
    ensures Keys(a) <= Keys(PutAll(a, b))
    ensures forall k :: k in Keys(PutAll(a, b)) <==> k in Keys(a) || k in Keys(b)
    ensures forall k ::
      Get(PutAll(a, b), k) == (if LastValue(b, k).Some? then LastValue(b, k) else Get(a, k))
    ensures UniqueKeys(a) ==> UniqueKeys(PutAll(a, b))
  {
    PutAllKeys(a, b);
    PutAllGet(a, b);
    if UniqueKeys(a) {
      PutAllUnique(a, b);
    }
  }

  lemma {:induction false} PutAllGet<V>(a: Dict<V>, b: Dict<V>)
    ensures forall k ::
      Get(PutAll(a, b), k) == (if LastValue(b, k).Some? then LastValue(b, k) else Get(a, k))
    decreases |b|
  {
    if b != [] {
      PutGet(a, b[0].0, b[0].1);
      PutAllGet(Put(a, b[0].0, b[0].1), b[1..]);
    }
  }

  lemma {:induction false} PutAllUnique<V>(a: Dict<V>, b: Dict<V>)
    requires UniqueKeys(a)
    ensures UniqueKeys(PutAll(a, b))
    decreases |b|
  {
    if b != [] {
      PutUnique(a, b[0].0, b[0].1);
      PutAllUnique(Put(a, b[0].0, b[0].1), b[1..]);
    }
  }

  /** The keys of `acc` followed by each key of `ks` that is new, in the
      order of its first occurrence: where `{**a, **b}` puts its keys. */
  function AppendNew(acc: seq<string>, ks: seq<string>): (r: seq<string>)
    ensures acc <= r
    ensures forall k :: k in r <==> k in acc || k in ks
    decreases |ks|
  {
    if ks == [] then acc
    else
      var acc' := if ks[0] in acc then acc else acc + [ks[0]];
      assert forall k :: k in ks <==> k == ks[0] || k in ks[1..];
      AppendNew(acc', ks[1..])
  }

  /** A further key lands at the end when it is new and changes nothing when
      it is already there: a repeated key keeps the place of its first
      occurrence. */
  lemma {:induction false} AppendNewSnoc(acc: seq<string>, ks: seq<string>, k: string)
    ensures AppendNew(acc, ks + [k]) ==
      (if k in AppendNew(acc, ks) then AppendNew(acc, ks) else AppendNew(acc, ks) + [k])
    decreases |ks|
  {
    if ks == [] {
      assert [k][1..] == [];
    } else {
      var acc' := if ks[0] in acc then acc else acc + [ks[0]];
      assert (ks + [k])[0] == ks[0] && (ks + [k])[1..] == ks[1..] + [k];
      AppendNewSnoc(acc', ks[1..], k);
    }
  }

  /** `{**a, **b}` keeps `a`'s keys in place and adds `b`'s new keys at the
      end, in the order of their first occurrence in `b`. */
  lemma {:induction false} PutAllKeys<V>(a: Dict<V>, b: Dict<V>)
    ensures Keys(PutAll(a, b)) == AppendNew(Keys(a), Keys(b))
    decreases |b|
  {
    if b != [] {
      PutKeys(a, b[0].0, b[0].1);
      PutAllKeys(Put(a, b[0].0, b[0].1), b[1..]);
      assert Keys(b)[0] == b[0].0;
      assert Keys(b)[1..] == Keys(b[1..]);
    }
  }

  /** For a genuine dict, the last item with a key is its only item. */
  lemma {:induction false} LastValueOfDict<V>(d: Dict<V>, k: string)
    requires UniqueKeys(d)
    ensures LastValue(d, k) == Get(d, k)
  {
    if d != [] {
      LastValueOfDict(d[1..], k);
      if d[0].0 == k {
        GetMissing(d[1..], k);
        assert k !in Keys(d[1..]) by {
          assert forall j :: 0 <= j < |d[1..]| ==> d[1..][j].0 == d[j + 1].0;
        }
      }
    }
  }

  /** Re-building a dict from its own items (`{k: v for k, v in d.items()}`)
      gives the same dict, order included. */
  lemma {:induction false} PutAllFresh<V>(a: Dict<V>, b: Dict<V>)
    requires UniqueKeys(a + b)
    ensures PutAll(a, b) == a + b
    decreases |b|
  {
    if b != [] {
      assert b[0].0 !in Keys(a) by {
        forall i | 0 <= i < |a| ensures a[i].0 != b[0].0 {
          assert (a + b)[i] == a[i] && (a + b)[|a|] == b[0];
        }
      }
      PutSpec(a, b[0].0, b[0].1);
      assert Put(a, b[0].0, b[0].1) == a + [b[0]] by {
        PutAppends(a, b[0].0, b[0].1);
      }
      assert (a + [b[0]]) + b[1..] == a + b;
      PutAllFresh(a + [b[0]], b[1..]);
    }
  }

  lemma {:induction false} PutAppends<V>(d: Dict<V>, k: string, v: V)
    requires k !in Keys(d)
    ensures Put(d, k, v) == d + [(k, v)]
  {
    if d != [] {
      assert Keys(d)[0] == d[0].0;
      assert Keys(d[1..]) == Keys(d)[1..];
      PutAppends(d[1..], k, v);
      calc {
        Put(d, k, v);
        [d[0]] + Put(d[1..], k, v);
        [d[0]] + (d[1..] + [(k, v)]);
        { assert d == [d[0]] + d[1..]; }
        d + [(k, v)];
      }
    }
  }

  /** A comprehension over a dict's own items reproduces the dict. */
  lemma FromItemsOfDict<V>(d: Dict<V>)
    requires UniqueKeys(d)
    ensures FromItems(d) == d
  {
    assert [] + d == d;
    PutAllFresh([], d);
  }

  /** A dict comprehension: the keys are those of `items` without repeats,
      and each key holds the value of the last item that carries it. */
  lemma FromItemsSpec<V>(items: Dict<V>)
    ensures UniqueKeys(FromItems(items))
    ensures forall k :: k in Keys(FromItems(items)) <==> k in Keys(items)
    ensures forall k :: Get(FromItems(items), k) == LastValue(items, k)
  {
    PutAllSpec([], items);
  }

  /** In a genuine dict, each item is what `get` returns for its key. */
  lemma {:induction false} GetItem<V>(d: Dict<V>, i: nat)
    requires UniqueKeys(d) && i < |d|
    ensures Get(d, d[i].0) == Some(d[i].1)
  {
    if i > 0 {
      assert d[0].0 != d[i].0;
      assert d[1..][i - 1] == d[i];
      GetItem(d[1..], i - 1);
    }
  }

  /** "Last write wins", stated with indices: when some item carries `k`,
      `LastValue` is the value of an item with key `k` that no later item
      overwrites. */
  lemma {:induction false} LastValueIndex<V>(items: Dict<V>, k: string)
    requires k in Keys(items)
    ensures exists i :: (0 <= i < |items| && items[i].0 == k && LastValue(items, k) == Some(items[i].1)
                         && forall j :: i < j < |items| ==> items[j].0 != k)
  {
    assert Keys(items) == [items[0].0] + Keys(items[1..]);
    if k in Keys(items[1..]) {
      LastValueIndex(items[1..], k);
      var i :| (0 <= i < |items[1..]| && items[1..][i].0 == k && LastValue(items[1..], k) == Some(items[1..][i].1)
                && forall j :: i < j < |items[1..]| ==> items[1..][j].0 != k);
      assert items[i + 1] == items[1..][i];
      forall j | i + 1 < j < |items| ensures items[j].0 != k {
        assert items[j] == items[1..][j - 1];
      }
    } else {
      GetMissing(items[1..], k);
      LastValueMissing(items[1..], k);
      forall j | 0 < j < |items| ensures items[j].0 != k {
        assert items[j].0 == Keys(items[1..])[j - 1];
      }
    }
  }

  lemma {:induction false} LastValueMissing<V>(items: Dict<V>, k: string)
    requires k !in Keys(items)
    ensures LastValue(items, k) == None
  {
    if items != [] {
      assert Keys(items) == [items[0].0] + Keys(items[1..]);
      LastValueMissing(items[1..], k);
    }
  }

}

=== FILE: dimensions.dfy ===
/**
 * Field classification: which columns become time dimension groups, which
 * become scalar dimensions, and what each generated field holds.
 */
module Dimensions {
  import opened Wrappers
  import opened Dicts
  import opened Models
  import opened LookerTypes
  import opened Descriptions
  import opened Truthiness
  import opened Comprehensions

  /** A `dimension_group` of the view, keys in the order the source writes them. */
  datatype LookmlDimensionGroup = LookmlDimensionGroup(
    name: string,
    groupType: string,
    labelText: Option<string>,
    sql: string,
    description: string,
    dataType: Option<LookerType>,
    timeframes: seq<string>,
    viewLabel: Option<string>,
    convertTz: Option<LookerConvertTimezoneType>)

  /** The optional attributes of a dimension; an unset one is absent from the dict. */
  datatype OptionalDimensionFields = OptionalDimensionFields(
    hidden: Option<LookerHiddenType>,
    valueFormatName: Option<LookerValueFormatName>,
    labelText: Option<string>,
    groupLabel: Option<string>,
    viewLabel: Option<string>,
    suggestions: Option<seq<string>>,
    requiredAccessGrants: Option<seq<string>>)

  /** A scalar `dimension` of the view. */
  datatype LookmlDimension = LookmlDimension(
    name: string,
    dimensionType: Option<LookerType>,
    sql: string,
    description: string,
    optional: OptionalDimensionFields)

  /** The default sql of a field derived from a column: `${TABLE}.<column>`. */
  function TableColumn(columnName: string): string {
    "${TABLE}." + columnName
  }

  /** Fields are written four spaces deep, so their description lines after
      the first start at six. */
  const FieldIndent: nat := 6

  /** The Looker type of a column's native type (None when it has none or it
      is not in the adapter's table). */
  function ColumnLookerType(column: DbtModelColumn, adapter: SupportedDbtAdapters): Option<LookerType> {
    MapColumnType(adapter, column.dataType)
  }

  /** `lookml_date_time_dimension_group` and `lookml_date_dimension_group`,
      which build the same dict. */
  function DimensionGroup(column: DbtModelColumn, adapter: SupportedDbtAdapters): (g: LookmlDimensionGroup)
    ensures g.groupType == "time"
    ensures g.name == (if IsSet(column.meta.dimension.name) then column.meta.dimension.name.value else column.name)
    ensures g.sql == (if IsSet(column.meta.dimension.sql) then column.meta.dimension.sql.value else TableColumn(column.name))
    ensures IndentedBy(g.description, FieldIndent)
    ensures Unindent(g.description, FieldIndent) ==
              (if column.meta.dimension.description != "" then column.meta.dimension.description else column.description)
    ensures g.dataType == ColumnLookerType(column, adapter)
    ensures |g.timeframes| > 0
    ensures g.timeframes == (if IsNonEmpty(column.meta.dimension.timeframes) then column.meta.dimension.timeframes.value
                             else LookerTimeframes())
    ensures g.labelText.Some? <==> IsSet(column.meta.dimension.labelText)
    ensures g.labelText.Some? ==> g.labelText == column.meta.dimension.labelText
    ensures g.viewLabel.Some? <==> IsSet(column.meta.dimension.viewLabel)
    ensures g.viewLabel.Some? ==> g.viewLabel == column.meta.dimension.viewLabel
    ensures g.convertTz.Some? <==> column.meta.dimension.convertTz == Some(ConvertNo)
    ensures g.convertTz.Some? ==> g.convertTz == Some(ConvertNo)
  {
    var dim := column.meta.dimension;
    var description := StrOr(dim.description, column.description);
    UnindentIndent(description, FieldIndent);
    IndentedNewlines(description, FieldIndent);
    LookmlDimensionGroup(
      OrElse(dim.name, column.name),
      "time",
      WhenSet(dim.labelText),
      OrElse(dim.sql, TableColumn(column.name)),
      IndentMultilineDescription(description, FieldIndent),
      ColumnLookerType(column, adapter),
      if IsNonEmpty(dim.timeframes) then dim.timeframes.value else LookerTimeframes(),
      WhenSet(dim.viewLabel),
      if dim.convertTz == Some(ConvertNo) then Some(ConvertNo) else None)
  }

  /** The filter of the first comprehension: a datetime or timestamp column,
      whether or not its dimension is enabled. */
  predicate IsDateTimeColumn(column: DbtModelColumn, adapter: SupportedDbtAdapters)
    ensures IsDateTimeColumn(column, adapter) ==> column.dataType.Some?
  {
    MappedIn(ColumnLookerType(column, adapter), LookerDateTimeTypes)
  }

  /** The filter of the second comprehension: an enabled date column. */
  predicate IsDateColumn(column: DbtModelColumn, adapter: SupportedDbtAdapters)
    ensures IsDateColumn(column, adapter) ==> column.dataType.Some?
  {
    column.meta.dimension.enabled && MappedIn(ColumnLookerType(column, adapter), LookerDateTypes)
  }

  /** The filter of the column dimensions: an enabled number, yesno or string column. */
  predicate IsScalarColumn(column: DbtModelColumn, adapter: SupportedDbtAdapters)
    ensures IsScalarColumn(column, adapter) ==> column.dataType.Some?
  {
    column.meta.dimension.enabled && MappedIn(ColumnLookerType(column, adapter), LookerScalarTypes)
  }

  function KeepDateTime(adapter: SupportedDbtAdapters): ((string, DbtModelColumn)) -> bool {
    (p: (string, DbtModelColumn)) => IsDateTimeColumn(p.1, adapter)
  }

  function KeepDate(adapter: SupportedDbtAdapters): ((string, DbtModelColumn)) -> bool {
    (p: (string, DbtModelColumn)) => IsDateColumn(p.1, adapter)
  }

  function BuildGroup(adapter: SupportedDbtAdapters): ((string, DbtModelColumn)) -> LookmlDimensionGroup {
    (p: (string, DbtModelColumn)) => DimensionGroup(p.1, adapter)
  }

  /** The `date_times` list: one group per datetime or timestamp column, in column order. */
  function DateTimeGroups(columns: Dict<DbtModelColumn>, adapter: SupportedDbtAdapters): (r: seq<LookmlDimensionGroup>)
    ensures |r| <= |columns|
    ensures forall i :: 0 <= i < |r| ==>
      MappedIn(r[i].dataType, LookerDateTimeTypes) && r[i].groupType == "time" && |r[i].timeframes| > 0
  {
    CollectSource(columns, KeepDateTime(adapter), BuildGroup(adapter));
    Collect(columns, KeepDateTime(adapter), BuildGroup(adapter))
  }

  /** The `dates` list: one group per enabled date column, in column order. */
  function DateGroups(columns: Dict<DbtModelColumn>, adapter: SupportedDbtAdapters): (r: seq<LookmlDimensionGroup>)
    ensures |r| <= |columns|
    ensures forall i :: 0 <= i < |r| ==>
      r[i].dataType == Some(LookerDate) && r[i].groupType == "time" && |r[i].timeframes| > 0
  {
    CollectSource(columns, KeepDate(adapter), BuildGroup(adapter));
    Collect(columns, KeepDate(adapter), BuildGroup(adapter))
  }

  /** `lookml_dimension_groups_from_model`: the datetime groups in column
      order, then the date groups in column order (which columns yield one is
      fixed by `DateTimeGroupsSnoc` and `DateGroupsSnoc`); every group is a
      time group with timeframes, and no date group comes before a datetime
      or timestamp group. */
  function DimensionGroupsFromModel(model: DbtModel, adapter: SupportedDbtAdapters): (r: seq<LookmlDimensionGroup>)
    ensures r == DateTimeGroups(model.columns, adapter) + DateGroups(model.columns, adapter)
    ensures forall i :: 0 <= i < |r| ==> r[i].groupType == "time" && |r[i].timeframes| > 0
    ensures forall i :: 0 <= i < |r| ==>
      MappedIn(r[i].dataType, LookerDateTimeTypes) || r[i].dataType == Some(LookerDate)
    ensures forall i, j :: 0 <= i < j < |r| && MappedIn(r[j].dataType, LookerDateTimeTypes) ==>
      MappedIn(r[i].dataType, LookerDateTimeTypes)
  {
    DateTimeGroups(model.columns, adapter) + DateGroups(model.columns, adapter)
  }

  /** Adding a column adds its datetime group at the end, or nothing; the
      `enabled` flag plays no part. */
  lemma {:induction false} DateTimeGroupsSnoc(columns: Dict<DbtModelColumn>, key: string, column: DbtModelColumn, adapter: SupportedDbtAdapters)
    ensures DateTimeGroups(columns + [(key, column)], adapter) ==
      DateTimeGroups(columns, adapter) + (if IsDateTimeColumn(column, adapter) then [DimensionGroup(column, adapter)] else [])
  {
    CollectSnoc(columns, (key, column), KeepDateTime(adapter), BuildGroup(adapter));
  }

  /** Adding a column adds its date group at the end exactly when it is an
      enabled date column. */
  lemma {:induction false} DateGroupsSnoc(columns: Dict<DbtModelColumn>, key: string, column: DbtModelColumn, adapter: SupportedDbtAdapters)
    ensures DateGroups(columns + [(key, column)], adapter) ==
      DateGroups(columns, adapter) + (if IsDateColumn(column, adapter) then [DimensionGroup(column, adapter)] else [])
  {
    CollectSnoc(columns, (key, column), KeepDate(adapter), BuildGroup(adapter));
  }

  /** The optional attributes of `get_optional_dimension_fields_dict`: each is
      present exactly when it is set (the value format only on a number), and
      then carries the annotation's value. */
  function GetOptionalDimensionFields(props: Dbt2LookerDimension, lookerType: Option<LookerType>): (r: OptionalDimensionFields)
    ensures r.hidden == props.hidden
    ensures r.valueFormatName.Some? <==> props.valueFormatName.Some? && lookerType == Some(LookerNumber)
    ensures r.valueFormatName.Some? ==> r.valueFormatName == props.valueFormatName
    ensures r.labelText.Some? <==> IsSet(props.labelText)
    ensures r.labelText.Some? ==> r.labelText == props.labelText
    ensures r.groupLabel.Some? <==> IsSet(props.groupLabel)
    ensures r.groupLabel.Some? ==> r.groupLabel == props.groupLabel
    ensures r.viewLabel.Some? <==> IsSet(props.viewLabel)
    ensures r.viewLabel.Some? ==> r.viewLabel == props.viewLabel
    ensures r.suggestions.Some? <==> IsNonEmpty(props.suggestions)
    ensures r.suggestions.Some? ==> r.suggestions == props.suggestions
    ensures r.requiredAccessGrants.Some? <==> IsNonEmpty(props.requiredAccessGrants)
    ensures r.requiredAccessGrants.Some? ==> r.requiredAccessGrants == props.requiredAccessGrants
  {
    OptionalDimensionFields(
      props.hidden,
      if props.valueFormatName.Some? && lookerType == Some(LookerNumber) then props.valueFormatName else None,
      WhenSet(props.labelText),
      WhenSet(props.groupLabel),
      WhenSet(props.viewLabel),
      WhenNonEmpty(props.suggestions),
      WhenNonEmpty(props.requiredAccessGrants))
  }

  /** The dimension a scalar column yields. */
  function ColumnDimension(column: DbtModelColumn, adapter: SupportedDbtAdapters): (d: LookmlDimension)
    ensures d.name == (if IsSet(column.meta.dimension.name) then column.meta.dimension.name.value else column.name)
    ensures d.sql == (if IsSet(column.meta.dimension.sql) then column.meta.dimension.sql.value else TableColumn(column.name))
    ensures IndentedBy(d.description, FieldIndent)
    ensures Unindent(d.description, FieldIndent) ==
              (if column.meta.dimension.description != "" then column.meta.dimension.description else column.description)
    ensures d.dimensionType == ColumnLookerType(column, adapter)
    ensures d.optional == GetOptionalDimensionFields(column.meta.dimension, ColumnLookerType(column, adapter))
  {
    var dim := column.meta.dimension;
    var description := StrOr(dim.description, column.description);
    UnindentIndent(description, FieldIndent);
    IndentedNewlines(description, FieldIndent);
    LookmlDimension(
      OrElse(dim.name, column.name),
      ColumnLookerType(column, adapter),
      OrElse(dim.sql, TableColumn(column.name)),
      IndentMultilineDescription(description, FieldIndent),
      GetOptionalDimensionFields(dim, ColumnLookerType(column, adapter)))
  }

  function KeepScalar(adapter: SupportedDbtAdapters): ((string, DbtModelColumn)) -> bool {
    (p: (string, DbtModelColumn)) => IsScalarColumn(p.1, adapter)
  }

  function BuildColumnDimension(adapter: SupportedDbtAdapters): ((string, DbtModelColumn)) -> LookmlDimension {
    (p: (string, DbtModelColumn)) => ColumnDimension(p.1, adapter)
  }

  /** The `column_dimensions` list: one dimension per enabled scalar column, in column order. */
  function ColumnDimensions(columns: Dict<DbtModelColumn>, adapter: SupportedDbtAdapters): (r: seq<LookmlDimension>)
    ensures |r| <= |columns|
    ensures forall i :: 0 <= i < |r| ==> MappedIn(r[i].dimensionType, LookerScalarTypes)
  {
    CollectSource(columns, KeepScalar(adapter), BuildColumnDimension(adapter));
    Collect(columns, KeepScalar(adapter), BuildColumnDimension(adapter))
  }

  /** Adding a column adds its dimension at the end exactly when it is an
      enabled scalar column. */
  lemma {:induction false} ColumnDimensionsSnoc(columns: Dict<DbtModelColumn>, key: string, column: DbtModelColumn, adapter: SupportedDbtAdapters)
    ensures ColumnDimensions(columns + [(key, column)], adapter) ==
      ColumnDimensions(columns, adapter) + (if IsScalarColumn(column, adapter) then [ColumnDimension(column, adapter)] else [])
  {
    CollectSnoc(columns, (key, column), KeepScalar(adapter), BuildColumnDimension(adapter));
  }

  /** A column is at most one of: a datetime group, a date group, a scalar
      dimension. */
  /** A column that passes any of the type filters has a type the adapter's
      table maps, so the lookup gives no warning and, as written, does not raise. */
  lemma QualifyingColumnsAreMapped(column: DbtModelColumn, adapter: SupportedDbtAdapters)
    requires IsDateTimeColumn(column, adapter) || IsDateColumn(column, adapter) || IsScalarColumn(column, adapter)
    ensures UnsupportedTypeWarning(adapter, column.dataType).None?
    ensures MapAdapterTypeToLookerAsWritten(adapter, column.dataType) == Success(ColumnLookerType(column, adapter))
  {
    assert MapColumnType(adapter, column.dataType).Some?;
    MappedTypeIsQuiet(adapter, column.dataType);
  }

  /** The same for a model-level dimension that passes the scalar filter. */
  lemma QualifyingModelDimensionsAreMapped(dim: Dbt2LookerDimension, adapter: SupportedDbtAdapters)
    requires IsScalarModelDimension(dim, adapter)
    ensures UnsupportedTypeWarning(adapter, dim.nativeType).None?
    ensures MapAdapterTypeToLookerAsWritten(adapter, dim.nativeType) == Success(MapColumnType(adapter, dim.nativeType))
  {
    MappedTypeIsQuiet(adapter, dim.nativeType);
  }

  lemma ColumnYieldsAtMostOneField(column: DbtModelColumn, adapter: SupportedDbtAdapters)
    ensures !(IsDateTimeColumn(column, adapter) && IsDateColumn(column, adapter))
    ensures !(IsDateTimeColumn(column, adapter) && IsScalarColumn(column, adapter))
    ensures !(IsDateColumn(column, adapter) && IsScalarColumn(column, adapter))
  {
    TypeListsDisjoint();
  }

  /** The model-level filter: a number, yesno or string type; `enabled` is not consulted. */
  predicate IsScalarModelDimension(dim: Dbt2LookerDimension, adapter: SupportedDbtAdapters)
    ensures IsScalarModelDimension(dim, adapter) ==> dim.nativeType.Some?
  {
    MappedIn(MapColumnType(adapter, dim.nativeType), LookerScalarTypes)
  }

  /** A model-level dimension that is emitted has a name and a sql expression. */
  predicate ModelDimensionsRenderable(dims: seq<Dbt2LookerDimension>, adapter: SupportedDbtAdapters) {
    forall i :: 0 <= i < |dims| && IsScalarModelDimension(dims[i], adapter) ==> dims[i].name.Some? && dims[i].sql.Some?
  }

  /** The dimension a model-level declaration yields: its own name, type and sql. */
  function ModelDimension(dim: Dbt2LookerDimension, adapter: SupportedDbtAdapters): (d: LookmlDimension)
    requires dim.name.Some? && dim.sql.Some?
    ensures d.name == dim.name.value && d.sql == dim.sql.value
    ensures IndentedBy(d.description, FieldIndent)
    ensures Unindent(d.description, FieldIndent) == dim.description
    ensures d.dimensionType == MapColumnType(adapter, dim.nativeType)
    ensures d.optional == GetOptionalDimensionFields(dim, MapColumnType(adapter, dim.nativeType))
  {
    UnindentIndent(dim.description, FieldIndent);
    IndentedNewlines(dim.description, FieldIndent);
    LookmlDimension(
      dim.name.value,
      MapColumnType(adapter, dim.nativeType),
      dim.sql.value,
      IndentMultilineDescription(dim.description, FieldIndent),
      GetOptionalDimensionFields(dim, MapColumnType(adapter, dim.nativeType)))
  }

  function KeepScalarModel(adapter: SupportedDbtAdapters): Dbt2LookerDimension -> bool {
    (d: Dbt2LookerDimension) => IsScalarModelDimension(d, adapter)
  }

  function BuildModelDimension(adapter: SupportedDbtAdapters): Dbt2LookerDimension --> LookmlDimension {
    (d: Dbt2LookerDimension) requires d.name.Some? && d.sql.Some? => ModelDimension(d, adapter)
  }

  /** The `model_dimensions` list: one dimension per model-level declaration of
      a scalar type, in declaration order. */
  function ModelDimensions(dims: seq<Dbt2LookerDimension>, adapter: SupportedDbtAdapters): (r: seq<LookmlDimension>)
    requires ModelDimensionsRenderable(dims, adapter)
    ensures |r| <= |dims|
    ensures forall i :: 0 <= i < |r| ==> MappedIn(r[i].dimensionType, LookerScalarTypes)
  {
    CollectSource(dims, KeepScalarModel(adapter), BuildModelDimension(adapter));
    Collect(dims, KeepScalarModel(adapter), BuildModelDimension(adapter))
  }

  /** Adding a declaration adds its dimension at the end exactly when its type
      is scalar, whether or not it is enabled. */
  lemma {:induction false} ModelDimensionsSnoc(dims: seq<Dbt2LookerDimension>, dim: Dbt2LookerDimension, adapter: SupportedDbtAdapters)
    requires ModelDimensionsRenderable(dims, adapter)
    requires IsScalarModelDimension(dim, adapter) ==> dim.name.Some? && dim.sql.Some?
    ensures ModelDimensionsRenderable(dims + [dim], adapter)
    ensures ModelDimensions(dims + [dim], adapter) ==
      ModelDimensions(dims, adapter) + (if IsScalarModelDimension(dim, adapter) then [ModelDimension(dim, adapter)] else [])
  {
    RenderableSnoc(dims, dim, adapter);
    CollectSnoc(dims, dim, KeepScalarModel(adapter), BuildModelDimension(adapter));
  }

  lemma RenderableSnoc(dims: seq<Dbt2LookerDimension>, dim: Dbt2LookerDimension, adapter: SupportedDbtAdapters)
    requires ModelDimensionsRenderable(dims, adapter)
    requires IsScalarModelDimension(dim, adapter) ==> dim.name.Some? && dim.sql.Some?
    ensures ModelDimensionsRenderable(dims + [dim], adapter)
  {
    var all := dims + [dim];
    forall i | 0 <= i < |all| && IsScalarModelDimension(all[i], adapter)
      ensures all[i].name.Some? && all[i].sql.Some?
    {
      if i < |dims| {
        assert all[i] == dims[i];
      }
    }
  }

  /** The view has model-level data to read. */
  predicate DimensionsAvailable(model: DbtModel, adapter: SupportedDbtAdapters) {
    HasConfigMeta(model) && ModelDimensionsRenderable(ConfigMeta(model).dimensions, adapter)
  }

  /** `lookml_dimensions_from_model`: the column dimensions in column order,
      then the model-level ones in declaration order (which ones is fixed by
      `ColumnDimensionsSnoc` and `ModelDimensionsSnoc`); every one has a
      number, yesno or string type. */
  function DimensionsFromModel(model: DbtModel, adapter: SupportedDbtAdapters): (r: seq<LookmlDimension>)
    requires DimensionsAvailable(model, adapter)
    ensures r == ColumnDimensions(model.columns, adapter) + ModelDimensions(ConfigMeta(model).dimensions, adapter)
    ensures |r| <= |model.columns| + |ConfigMeta(model).dimensions|
    ensures forall i :: 0 <= i < |r| ==> MappedIn(r[i].dimensionType, LookerScalarTypes)
  {
    ColumnDimensions(model.columns, adapter) + ModelDimensions(ConfigMeta(model).dimensions, adapter)
  }

  /** A column without `data_type` and a model-level dimension without `type`
      raise in the lookup as written; with the corrected lookup neither passes
      any filter, so both are skipped. */
  lemma UntypedFieldsAreSkipped(key: string, column: DbtModelColumn, dim: Dbt2LookerDimension, adapter: SupportedDbtAdapters)
    requires column.dataType.None? && dim.nativeType.None?
    ensures MapAdapterTypeToLookerAsWritten(adapter, column.dataType).Failure?
    ensures MapAdapterTypeToLookerAsWritten(adapter, dim.nativeType).Failure?
    ensures !IsDateTimeColumn(column, adapter) && !IsDateColumn(column, adapter) && !IsScalarColumn(column, adapter)
    ensures ModelDimensions([dim], adapter) == []
    ensures DateTimeGroups([(key, column)], adapter) == [] && DateGroups([(key, column)], adapter) == []
    ensures ColumnDimensions([(key, column)], adapter) == []
  {
    var none: seq<Dbt2LookerDimension> := [];
    assert [dim][1..] == none;
    assert [(key, column)][1..] == [];
  }

  /** A string column with no annotation yields one dimension named after the
      column, reading `${TABLE}.<column>`, described by the column's own
      description and with no optional attribute. */
  lemma UnannotatedStringColumn(key: string, column: DbtModelColumn, adapter: SupportedDbtAdapters)
    requires column.meta.dimension == DefaultDimension()
    requires ColumnLookerType(column, adapter) == Some(LookerString)
    ensures var ds := ColumnDimensions([(key, column)], adapter);
      && |ds| == 1
      && ds[0].name == column.name
      && ds[0].sql == "${TABLE}." + column.name
      && Unindent(ds[0].description, FieldIndent) == column.description
      && ds[0].optional == OptionalDimensionFields(None, None, None, None, None, None, None)
      && DateTimeGroups([(key, column)], adapter) == [] && DateGroups([(key, column)], adapter) == []
  {
    var none: Dict<DbtModelColumn> := [];
    assert none + [(key, column)] == [(key, column)];
    ColumnDimensionsSnoc(none, key, column, adapter);
    DateTimeGroupsSnoc(none, key, column, adapter);
    DateGroupsSnoc(none, key, column, adapter);
    assert IsScalarColumn(column, adapter) && !IsDateTimeColumn(column, adapter) && !IsDateColumn(column, adapter);
  }

  /** A Postgres `TIMESTAMP` column `created_at` with no annotation yields one
      group named `created_at` with the full timeframe list, the `timestamp`
      datatype and no `convert_tz`. */
  lemma CreatedAtTimestampGroup(column: DbtModelColumn)
    requires column.name == "created_at" && column.dataType == Some("TIMESTAMP")
    requires column.meta.dimension == DefaultDimension()
    ensures var gs := DateTimeGroups([("created_at", column)], Postgres);
      && |gs| == 1
      && gs[0].name == "created_at" && gs[0].groupType == "time"
      && gs[0].timeframes == LookerTimeframes()
      && gs[0].dataType == Some(LookerTimestamp)
      && gs[0].convertTz == None
  {
    PostgresTimestamp(column);
    var none: Dict<DbtModelColumn> := [];
    DateTimeGroupsSnoc(none, "created_at", column, Postgres);
    assert none + [("created_at", column)] == [("created_at", column)];
    assert DateTimeGroups(none, Postgres) == [];
    assert IsDateTimeColumn(column, Postgres);
  }

  lemma PostgresTimestamp(column: DbtModelColumn)
    requires column.dataType == Some("TIMESTAMP")
    ensures ColumnLookerType(column, Postgres) == Some(LookerTimestamp)
  {
    PostgresTimestampIsTimestamp();
  }
}

=== FILE: looker_types.dfy ===
/**
 * How a column's native database type becomes a Looker field type: the
 * per-adapter tables, the Spark precision strip and the case-insensitive
 * lookup, plus the type lists the classifiers test against.
 */
module LookerTypes {
  import opened Wrappers
  import opened Ascii
  import opened Models

  /** The Looker types the tables map to. */
  datatype LookerType = LookerNumber | LookerYesNo | LookerString | LookerDate | LookerDateTime | LookerTimestamp

  const LookerDateTimeTypes: set<LookerType> := {LookerDateTime, LookerTimestamp}
  const LookerDateTypes: set<LookerType> := {LookerDate}
  const LookerScalarTypes: set<LookerType> := {LookerNumber, LookerYesNo, LookerString}

  /** `t in looker_..._types` where `t` may be None (which is in no list). */
  predicate MappedIn(t: Option<LookerType>, types: set<LookerType>) {
    t.Some? && t.value in types
  }

  /** The canonical timeframes of a dimension group: fourteen distinct,
      non-empty, lower-case names, the finest (`raw`) first. */
  function LookerTimeframes(): (r: seq<string>)
    ensures |r| == 14 && r[0] == "raw"
    ensures forall i, j :: 0 <= i < j < |r| ==> r[i] != r[j]
    ensures forall i :: 0 <= i < |r| ==> r[i] != [] && IsLower(r[i])
  {
    [ "raw", "time", "hour", "date", "day_of_week", "day_of_year", "week",
      "week_of_year", "month", "month_num", "month_name", "quarter",
      "quarter_of_year", "year"]
  }

  /** A key a lookup can reach: no lower-case letter, so upper-casing keeps
      it, and no parenthesis, so the Spark strip keeps it. */
  predicate IsTableKey(k: string) {
    HasNoLower(k) && '(' !in k
  }

  function BigQueryTypes(): map<string, LookerType> {
    map[
      "INT64" := LookerNumber, "INTEGER" := LookerNumber, "FLOAT" := LookerNumber,
      "FLOAT64" := LookerNumber, "NUMERIC" := LookerNumber, "BIGNUMERIC" := LookerNumber,
      "BOOLEAN" := LookerYesNo, "STRING" := LookerString, "TIMESTAMP" := LookerTimestamp,
      "DATETIME" := LookerDateTime, "DATE" := LookerDate, "TIME" := LookerString,
      "BOOL" := LookerYesNo, "ARRAY" := LookerString, "GEOGRAPHY" := LookerString,
      "BYTES" := LookerString]
  }

  function SnowflakeTypes(): map<string, LookerType> {
    map[
      "NUMBER" := LookerNumber, "DECIMAL" := LookerNumber, "NUMERIC" := LookerNumber,
      "INT" := LookerNumber, "INTEGER" := LookerNumber, "BIGINT" := LookerNumber,
      "SMALLINT" := LookerNumber, "FLOAT" := LookerNumber, "FLOAT4" := LookerNumber,
      "FLOAT8" := LookerNumber, "DOUBLE" := LookerNumber, "DOUBLE PRECISION" := LookerNumber,
      "REAL" := LookerNumber, "VARCHAR" := LookerString, "CHAR" := LookerString,
      "CHARACTER" := LookerString, "STRING" := LookerString, "TEXT" := LookerString,
      "BINARY" := LookerString, "VARBINARY" := LookerString, "BOOLEAN" := LookerYesNo,
      "DATE" := LookerDate, "DATETIME" := LookerDateTime, "TIME" := LookerString,
      "TIMESTAMP" := LookerTimestamp, "TIMESTAMP_NTZ" := LookerTimestamp,
      "VARIANT" := LookerString, "OBJECT" := LookerString, "ARRAY" := LookerString,
      "GEOGRAPHY" := LookerString]
  }

  function RedshiftTypes(): map<string, LookerType> {
    map[
      "SMALLINT" := LookerNumber, "INT2" := LookerNumber, "INTEGER" := LookerNumber,
      "INT" := LookerNumber, "INT4" := LookerNumber, "BIGINT" := LookerNumber,
      "INT8" := LookerNumber, "DECIMAL" := LookerNumber, "NUMERIC" := LookerNumber,
      "REAL" := LookerNumber, "FLOAT4" := LookerNumber, "DOUBLE PRECISION" := LookerNumber,
      "FLOAT8" := LookerNumber, "FLOAT" := LookerNumber, "BOOLEAN" := LookerYesNo,
      "BOOL" := LookerYesNo, "CHAR" := LookerString, "CHARACTER" := LookerString,
      "NCHAR" := LookerString, "BPCHAR" := LookerString, "VARCHAR" := LookerString,
      "CHARACTER VARYING" := LookerString, "NVARCHAR" := LookerString, "TEXT" := LookerString,
      "DATE" := LookerDate, "TIMESTAMP" := LookerTimestamp,
      "TIMESTAMP WITHOUT TIME ZONE" := LookerTimestamp, "GEOMETRY" := LookerString,
      "TIME" := LookerString, "TIME WITHOUT TIME ZONE" := LookerString]
  }

  /** The Postgres dict, split in source order into two halves that share
      no key, which keeps reasoning about its keys small. */
  function PostgresTypes(): map<string, LookerType> {
    PostgresTypesToFloat() + PostgresTypesFromBoolean()
  }

  function PostgresTypesToFloat(): map<string, LookerType> {
    map[
      "XML" := LookerString, "UUID" := LookerString, "PG_LSN" := LookerString,
      "MACADDR" := LookerString, "JSON" := LookerString, "JSONB" := LookerString,
      "CIDR" := LookerString, "INET" := LookerString, "MONEY" := LookerNumber,
      "SMALLINT" := LookerNumber, "INT2" := LookerNumber, "SMALLSERIAL" := LookerNumber,
      "SERIAL2" := LookerNumber, "INTEGER" := LookerNumber, "INT" := LookerNumber,
      "INT4" := LookerNumber, "SERIAL" := LookerNumber, "SERIAL4" := LookerNumber,
      "BIGINT" := LookerNumber, "INT8" := LookerNumber, "BIGSERIAL" := LookerNumber,
      "SERIAL8" := LookerNumber, "DECIMAL" := LookerNumber, "NUMERIC" := LookerNumber,
      "REAL" := LookerNumber, "FLOAT4" := LookerNumber, "DOUBLE PRECISION" := LookerNumber,
      "FLOAT8" := LookerNumber, "FLOAT" := LookerNumber]
  }

  function PostgresTypesFromBoolean(): map<string, LookerType> {
    map[
      "BOOLEAN" := LookerYesNo,
      "BOOL" := LookerYesNo, "CHAR" := LookerString, "CHARACTER" := LookerString,
      "NCHAR" := LookerString, "BPCHAR" := LookerString, "VARCHAR" := LookerString,
      "CHARACTER VARYING" := LookerString, "NVARCHAR" := LookerString, "TEXT" := LookerString,
      "DATE" := LookerDate, "TIMESTAMP" := LookerTimestamp,
      "TIMESTAMP WITHOUT TIME ZONE" := LookerTimestamp, "GEOMETRY" := LookerString,
      "TIME" := LookerString, "TIME WITHOUT TIME ZONE" := LookerString,
      "STRING" := LookerString]
  }

  /** Spark's `DATE` maps to `datetime`, not `date`. */
  function SparkTypes(): map<string, LookerType> {
    map[
      "BYTE" := LookerNumber, "SHORT" := LookerNumber, "INTEGER" := LookerNumber,
      "LONG" := LookerNumber, "FLOAT" := LookerNumber, "DOUBLE" := LookerNumber,
      "DECIMAL" := LookerNumber, "STRING" := LookerString, "VARCHAR" := LookerString,
      "CHAR" := LookerString, "BOOLEAN" := LookerYesNo, "TIMESTAMP" := LookerTimestamp,
      "DATE" := LookerDateTime]
  }

  // The keys of each table, checked a few at a time.

  lemma BigQueryKeys1()
    ensures IsTableKey("INT64") &&
      IsTableKey("INTEGER") &&
      IsTableKey("FLOAT") &&
      IsTableKey("FLOAT64") &&
      IsTableKey("NUMERIC") &&
      IsTableKey("BIGNUMERIC") &&
      IsTableKey("BOOLEAN")
  {
  }

  lemma BigQueryKeys2()
    ensures IsTableKey("STRING") &&
      IsTableKey("TIMESTAMP") &&
      IsTableKey("DATETIME") &&
      IsTableKey("DATE") &&
      IsTableKey("TIME") &&
      IsTableKey("BOOL") &&
      IsTableKey("ARRAY")
  {
  }

  lemma BigQueryKeys3()
    ensures IsTableKey("GEOGRAPHY") &&
      IsTableKey("BYTES")
  {
  }

  lemma SnowflakeKeys1()
    ensures IsTableKey("NUMBER") &&
      IsTableKey("DECIMAL") &&
      IsTableKey("NUMERIC") &&
      IsTableKey("INT") &&
      IsTableKey("INTEGER") &&
      IsTableKey("BIGINT") &&
      IsTableKey("SMALLINT")
  {
  }

  lemma SnowflakeKeys2()
    ensures IsTableKey("FLOAT") &&
      IsTableKey("FLOAT4") &&
      IsTableKey("FLOAT8") &&
      IsTableKey("DOUBLE") &&
      IsTableKey("DOUBLE PRECISION") &&
      IsTableKey("REAL")
  {
  }

  lemma SnowflakeKeys3()
    ensures IsTableKey("VARCHAR") &&
      IsTableKey("CHAR") &&
      IsTableKey("CHARACTER") &&
      IsTableKey("STRING") &&
      IsTableKey("TEXT") &&
      IsTableKey("BINARY") &&
      IsTableKey("VARBINARY")
  {
  }

  lemma SnowflakeKeys4()
    ensures IsTableKey("BOOLEAN") &&
      IsTableKey("DATE") &&
      IsTableKey("DATETIME") &&
      IsTableKey("TIME") &&
      IsTableKey("TIMESTAMP") &&
      IsTableKey("TIMESTAMP_NTZ")
  {
  }

  lemma SnowflakeKeys5()
    ensures IsTableKey("VARIANT") &&
      IsTableKey("OBJECT") &&
      IsTableKey("ARRAY") &&
      IsTableKey("GEOGRAPHY")
  {
  }

  lemma RedshiftKeys1()
    ensures IsTableKey("SMALLINT") &&
      IsTableKey("INT2") &&
      IsTableKey("INTEGER") &&
      IsTableKey("INT") &&
      IsTableKey("INT4") &&
      IsTableKey("BIGINT") &&
      IsTableKey("INT8") &&
      IsTableKey("DECIMAL")
  {
  }

  lemma RedshiftKeys2()
    ensures IsTableKey("NUMERIC") &&
      IsTableKey("REAL") &&
      IsTableKey("FLOAT4") &&
      IsTableKey("DOUBLE PRECISION") &&
      IsTableKey("FLOAT8") &&
      IsTableKey("FLOAT")
  {
  }

  lemma RedshiftKeys3()
    ensures IsTableKey("BOOLEAN") &&
      IsTableKey("BOOL") &&
      IsTableKey("CHAR") &&
      IsTableKey("CHARACTER") &&
      IsTableKey("NCHAR") &&
      IsTableKey("BPCHAR") &&
      IsTableKey("VARCHAR")
  {
  }

  lemma RedshiftKeys4()
    ensures IsTableKey("CHARACTER VARYING") &&
      IsTableKey("NVARCHAR") &&
      IsTableKey("TEXT") &&
      IsTableKey("DATE") &&
      IsTableKey("TIMESTAMP")
  {
  }

  lemma RedshiftKeys5()
    ensures IsTableKey("TIMESTAMP WITHOUT TIME ZONE") &&
      IsTableKey("GEOMETRY") &&
      IsTableKey("TIME")
  {
  }

  lemma RedshiftKeys6()
    ensures IsTableKey("TIME WITHOUT TIME ZONE")
  {
  }

  lemma PostgresKeys1()
    ensures IsTableKey("XML") &&
      IsTableKey("UUID") &&
      IsTableKey("PG_LSN") &&
      IsTableKey("MACADDR") &&
      IsTableKey("JSON") &&
      IsTableKey("JSONB") &&
      IsTableKey("CIDR") &&
      IsTableKey("INET") &&
      IsTableKey("MONEY")
  {
  }

  lemma PostgresKeys2()
    ensures IsTableKey("SMALLINT") &&
      IsTableKey("INT2") &&
      IsTableKey("SMALLSERIAL") &&
      IsTableKey("SERIAL2") &&
      IsTableKey("INTEGER") &&
      IsTableKey("INT") &&
      IsTableKey("INT4")
  {
  }

  lemma PostgresKeys3()
    ensures IsTableKey("SERIAL") &&
      IsTableKey("SERIAL4") &&
      IsTableKey("BIGINT") &&
      IsTableKey("INT8") &&
      IsTableKey("BIGSERIAL") &&
      IsTableKey("SERIAL8") &&
      IsTableKey("DECIMAL")
  {
  }

  lemma PostgresKeys4()
    ensures IsTableKey("NUMERIC") &&
      IsTableKey("REAL") &&
      IsTableKey("FLOAT4") &&
      IsTableKey("DOUBLE PRECISION") &&
      IsTableKey("FLOAT8") &&
      IsTableKey("FLOAT")
  {
  }

  lemma PostgresKeys5()
    ensures IsTableKey("BOOLEAN") &&
      IsTableKey("BOOL") &&
      IsTableKey("CHAR") &&
      IsTableKey("CHARACTER") &&
      IsTableKey("NCHAR") &&
      IsTableKey("BPCHAR") &&
      IsTableKey("VARCHAR")
  {
  }

  lemma PostgresKeys6()
    ensures IsTableKey("CHARACTER VARYING") &&
      IsTableKey("NVARCHAR") &&
      IsTableKey("TEXT") &&
      IsTableKey("DATE") &&
      IsTableKey("TIMESTAMP")
  {
  }

  lemma PostgresKeys7()
    ensures IsTableKey("TIMESTAMP WITHOUT TIME ZONE") &&
      IsTableKey("GEOMETRY") &&
      IsTableKey("TIME")
  {
  }

  lemma PostgresKeys8()
    ensures IsTableKey("TIME WITHOUT TIME ZONE") &&
      IsTableKey("STRING")
  {
  }

  lemma SparkKeys1()
    ensures IsTableKey("BYTE") &&
      IsTableKey("SHORT") &&
      IsTableKey("INTEGER") &&
      IsTableKey("LONG") &&
      IsTableKey("FLOAT") &&
      IsTableKey("DOUBLE") &&
      IsTableKey("DECIMAL") &&
      IsTableKey("STRING")
  {
  }

  lemma SparkKeys2()
    ensures IsTableKey("VARCHAR") &&
      IsTableKey("CHAR") &&
      IsTableKey("BOOLEAN") &&
      IsTableKey("TIMESTAMP") &&
      IsTableKey("DATE")
  {
  }

  /** Every key of the BigQuery table is reachable by the lookup. */
  lemma BigQueryKeysReachable()
    ensures forall k :: k in BigQueryTypes() ==> IsTableKey(k)
  {
    BigQueryKeys1(); BigQueryKeys2(); BigQueryKeys3();
  }

  /** Every key of the Snowflake table is reachable by the lookup. */
  lemma SnowflakeKeysReachable()
    ensures forall k :: k in SnowflakeTypes() ==> IsTableKey(k)
  {
    SnowflakeKeys1(); SnowflakeKeys2(); SnowflakeKeys3(); SnowflakeKeys4(); SnowflakeKeys5();
  }

  /** Every key of the Redshift table is reachable by the lookup. */
  lemma RedshiftKeysReachable()
    ensures forall k :: k in RedshiftTypes() ==> IsTableKey(k)
  {
    RedshiftKeys1(); RedshiftKeys2(); RedshiftKeys3(); RedshiftKeys4(); RedshiftKeys5(); RedshiftKeys6();
  }

  /** Every key of the Postgres table is reachable by the lookup. */
  lemma PostgresKeysReachable()
    ensures forall k :: k in PostgresTypes() ==> IsTableKey(k)
  {
    PostgresKeysToFloat();
    PostgresKeysFromBoolean();
  }

  lemma PostgresKeysToFloat()
    ensures forall k :: k in PostgresTypesToFloat() ==> IsTableKey(k)
  {
    PostgresKeys1(); PostgresKeys2(); PostgresKeys3(); PostgresKeys4();
  }

  lemma PostgresKeysFromBoolean()
    ensures forall k :: k in PostgresTypesFromBoolean() ==> IsTableKey(k)
  {
    PostgresKeys5(); PostgresKeys6(); PostgresKeys7(); PostgresKeys8();
  }

  /** Every key of the Spark table is reachable by the lookup. */
  lemma SparkKeysReachable()
    ensures forall k :: k in SparkTypes() ==> IsTableKey(k)
  {
    SparkKeys1(); SparkKeys2();
  }

  /** `LOOKER_DTYPE_MAP[adapter]` */
  function LookerDtypeMap(adapter: SupportedDbtAdapters): map<string, LookerType> {
    match adapter
    case BigQuery => BigQueryTypes()
    case Snowflake => SnowflakeTypes()
    case Redshift => RedshiftTypes()
    case Postgres => PostgresTypes()
    case Spark => SparkTypes()
  }


  /** Every key of every table is reachable: looking a key up, as it is
      written in the table, finds its own entry, on every adapter. */
  lemma TableKeysReachable(adapter: SupportedDbtAdapters, k: string)
    requires k in LookerDtypeMap(adapter)
    ensures LookupKey(adapter, k) == k
    ensures MapAdapterTypeToLooker(adapter, k) == Some(LookerDtypeMap(adapter)[k])
  {
    match adapter
    case BigQuery => BigQueryKeysReachable();
    case Snowflake => SnowflakeKeysReachable();
    case Redshift => RedshiftKeysReachable();
    case Postgres => PostgresKeysReachable();
    case Spark => SparkKeysReachable();
    assert IsTableKey(k);
    UpperOfNoLower(k);
    NormaliseNoParen(k);
  }

  /** `re.match(r'^[^\(]*', s).group(0)`: the longest prefix of `s` that
      contains no opening parenthesis. */
  function NormaliseSparkTypes(s: string): (r: string)
    ensures r <= s
    ensures '(' !in r
    ensures r == s || s[|r|] == '('
  {
    if s == [] || s[0] == '(' then [] else [s[0]] + NormaliseSparkTypes(s[1..])
  }

  /** The lookup key: the type upper-cased, after the precision strip on Spark. */
  function LookupKey(adapter: SupportedDbtAdapters, columnType: string): string {
    Upper(if adapter == Spark then NormaliseSparkTypes(columnType) else columnType)
  }

  /** `map_adapter_type_to_looker` for a type that is present: the table entry
      under the lookup key, or None when the table has no such entry. */
  function MapAdapterTypeToLooker(adapter: SupportedDbtAdapters, columnType: string): (r: Option<LookerType>)
    ensures r.Some? <==> LookupKey(adapter, columnType) in LookerDtypeMap(adapter)
    ensures r.Some? ==> r.value == LookerDtypeMap(adapter)[LookupKey(adapter, columnType)]
  {
    TableGet(adapter, LookupKey(adapter, columnType))
  }

  /** `LOOKER_DTYPE_MAP[adapter].get(key)` */
  function TableGet(adapter: SupportedDbtAdapters, key: string): Option<LookerType> {
    if key in LookerDtypeMap(adapter) then Some(LookerDtypeMap(adapter)[key]) else None
  }

  /** `map_adapter_type_to_looker` exactly as written, for a `data_type` that
      may be None: the type is upper-cased (or matched, on Spark) before the
      `is not None` guard, so a missing type raises instead of mapping to None. */
  function MapAdapterTypeToLookerAsWritten(adapter: SupportedDbtAdapters, columnType: Option<string>): (r: Result<Option<LookerType>, string>)
    ensures columnType.None? ==> r.Failure?
    ensures columnType.Some? ==> r == Success(MapAdapterTypeToLooker(adapter, columnType.value))
  {
    match columnType
    case None => Failure(if adapter == Spark then "TypeError" else "AttributeError")
    case Some(t) => Success(MapAdapterTypeToLooker(adapter, t))
  }

  /** `map_adapter_type_to_looker` as its guard intends it: a missing type maps
      to None, a present one is looked up. The rest of the model uses this. */
  function MapColumnType(adapter: SupportedDbtAdapters, columnType: Option<string>): (r: Option<LookerType>)
    ensures columnType.None? ==> r.None?
    ensures columnType.Some? ==> r == MapAdapterTypeToLooker(adapter, columnType.value)
    ensures MapAdapterTypeToLookerAsWritten(adapter, columnType).Success? ==>
              MapAdapterTypeToLookerAsWritten(adapter, columnType).value == r
  {
    match columnType
    case None => None
    case Some(t) => MapAdapterTypeToLooker(adapter, t)
  }

  /** The warning logged by the lookup: present exactly when a present type has
      no entry, and naming the type and the adapter. */
  function UnsupportedTypeWarning(adapter: SupportedDbtAdapters, columnType: Option<string>): (w: Option<string>)
    ensures w.Some? <==> columnType.Some? && MapColumnType(adapter, columnType).None?
    ensures w.Some? ==> w.value == "Column type " + columnType.value + " not supported for conversion from "
                                   + AdapterName(adapter) + " to looker. No dimension will be created."
  {
    if columnType.Some? && MapColumnType(adapter, columnType).None? then
      Some("Column type " + columnType.value + " not supported for conversion from "
           + AdapterName(adapter) + " to looker. No dimension will be created.")
    else None
  }

  // ------------------------------------------------------------------ lemmas

  /** A type the table maps draws no warning, and the lookup as written
      gives the same type without raising. */
  lemma MappedTypeIsQuiet(adapter: SupportedDbtAdapters, t: Option<string>)
    requires MapColumnType(adapter, t).Some?
    ensures UnsupportedTypeWarning(adapter, t).None?
    ensures MapAdapterTypeToLookerAsWritten(adapter, t) == Success(MapColumnType(adapter, t))
  {
  }

  /** Stripping the precision is idempotent. */
  lemma NormaliseSparkTypesIdempotent(s: string)
    ensures NormaliseSparkTypes(NormaliseSparkTypes(s)) == NormaliseSparkTypes(s)
  {
    NormaliseNoParen(NormaliseSparkTypes(s));
  }

  /** A type without a parenthesis is left as it is. */
  lemma {:induction false} NormaliseNoParen(s: string)
    requires '(' !in s
    ensures NormaliseSparkTypes(s) == s
  {
    if s != [] {
      assert s[0] in s;
      assert forall c :: c in s[1..] ==> c in s;
      NormaliseNoParen(s[1..]);
    }
  }

  /** Whatever follows the first parenthesis is dropped. */
  lemma {:induction false} NormaliseDropsPrecision(s: string, precision: string)
    requires '(' !in s
    ensures NormaliseSparkTypes(s + "(" + precision) == s
  {
    if s == [] {
      assert s + "(" + precision == ['('] + precision;
    } else {
      assert s[0] in s;
      assert forall c :: c in s[1..] ==> c in s;
      assert (s + "(" + precision)[1..] == s[1..] + "(" + precision;
      NormaliseDropsPrecision(s[1..], precision);
    }
  }

  /** Changing case and stripping the precision commute (a parenthesis has no case). */
  lemma {:induction false} NormaliseCommutesWithCase(s: string)
    ensures NormaliseSparkTypes(Upper(s)) == Upper(NormaliseSparkTypes(s))
    ensures NormaliseSparkTypes(Lower(s)) == Lower(NormaliseSparkTypes(s))
  {
    NormaliseCommutesWithUpper(s);
    NormaliseCommutesWithLower(s);
  }

  lemma {:induction false} NormaliseCommutesWithUpper(s: string)
    ensures NormaliseSparkTypes(Upper(s)) == Upper(NormaliseSparkTypes(s))
  {
    if s != [] {
      assert Upper(s)[0] == UpperChar(s[0]) && Upper(s)[1..] == Upper(s[1..]);
      NormaliseCommutesWithUpper(s[1..]);
    }
  }

  lemma {:induction false} NormaliseCommutesWithLower(s: string)
    ensures NormaliseSparkTypes(Lower(s)) == Lower(NormaliseSparkTypes(s))
  {
    if s != [] {
      assert Lower(s)[0] == LowerChar(s[0]) && Lower(s)[1..] == Lower(s[1..]);
      NormaliseCommutesWithLower(s[1..]);
    }
  }

  /** The lookup is case-insensitive: a type written in any case maps alike. */
  lemma LookupIgnoresCase(adapter: SupportedDbtAdapters, columnType: string)
    ensures MapAdapterTypeToLooker(adapter, Upper(columnType)) == MapAdapterTypeToLooker(adapter, columnType)
    ensures MapAdapterTypeToLooker(adapter, Lower(columnType)) == MapAdapterTypeToLooker(adapter, columnType)
  {
    NormaliseCommutesWithCase(columnType);
    var n := if adapter == Spark then NormaliseSparkTypes(columnType) else columnType;
    UpperIgnoresCase(n);
    var k, ku, kl := LookupKey(adapter, columnType), LookupKey(adapter, Upper(columnType)), LookupKey(adapter, Lower(columnType));
    assert ku == k && kl == k;
    assert TableGet(adapter, ku) == TableGet(adapter, k);
  }

  /** On Spark, a precision or scale suffix does not change the mapping:
      `DECIMAL(10,2)` maps like `DECIMAL`. */
  lemma SparkIgnoresPrecision(baseType: string, precision: string)
    requires '(' !in baseType
    ensures MapAdapterTypeToLooker(Spark, baseType + "(" + precision) == MapAdapterTypeToLooker(Spark, baseType)
  {
    NormaliseDropsPrecision(baseType, precision);
    NormaliseNoParen(baseType);
  }

  /** Spark's `decimal(p,s)` is a number whatever its precision and scale:
      the precision is stripped and the case ignored. */
  lemma SparkDecimalIsNumber(precision: string)
    ensures MapAdapterTypeToLooker(Spark, "decimal(" + precision) == Some(LookerNumber)
  {
    assert "decimal(" + precision == "decimal" + "(" + precision;
    SparkIgnoresPrecision("decimal", precision);
    SparkDecimalIsNumberBase();
  }

  lemma SparkDecimalIsNumberBase()
    ensures MapAdapterTypeToLooker(Spark, "decimal") == Some(LookerNumber)
  {
    SparkDecimalKey();
    SparkDecimalEntry();
    assert LookerDtypeMap(Spark) == SparkTypes();
  }

  lemma SparkDecimalEntry()
    ensures "DECIMAL" in SparkTypes() && SparkTypes()["DECIMAL"] == LookerNumber
  {
  }

  lemma SparkDecimalKey()
    ensures LookupKey(Spark, "decimal") == "DECIMAL"
  {
    NormaliseNoParen("decimal");
    UpperDecimal();
  }

  lemma UpperDecimal()
    ensures Upper("decimal") == "DECIMAL"
  {
    var u := Upper("decimal");
    assert u[0] == 'D' && u[1] == 'E' && u[2] == 'C' && u[3] == 'I' && u[4] == 'M' && u[5] == 'A' && u[6] == 'L';
  }

  /** Snowflake's `NUMBER(38,0)` has no entry: only Spark strips the precision. */
  lemma SnowflakeNumberWithPrecisionIsUnmapped()
    ensures MapAdapterTypeToLooker(Snowflake, "NUMBER(38,0)") == None
  {
    SnowflakeKeyOfNumberWithPrecision();
    SnowflakeHasNoNumberWithPrecision();
  }

  lemma SnowflakeKeyOfNumberWithPrecision()
    ensures LookupKey(Snowflake, "NUMBER(38,0)") == "NUMBER(38,0)"
  {
    var key := "NUMBER(38,0)";
    assert forall i :: 0 <= i < |key| ==> UpperChar(key[i]) == key[i];
  }

  lemma SnowflakeHasNoNumberWithPrecision()
    ensures TableGet(Snowflake, "NUMBER(38,0)") == None
  {
    assert "NUMBER(38,0)" !in SnowflakeTypes();
  }

  /** Spark's `DATE` is a datetime, so it gets a dimension group without opt-in. */
  lemma SparkDateIsDateTime()
    ensures MapAdapterTypeToLooker(Spark, "date") == Some(LookerDateTime)
  {
    NormaliseNoParen("date");
    assert Upper("date") == "DATE" by {
      var u := Upper("date");
      assert u[0] == 'D' && u[1] == 'A' && u[2] == 'T' && u[3] == 'E';
    }
    assert MapAdapterTypeToLooker(Spark, "date") == TableGet(Spark, "DATE");
    assert TableGet(Spark, "DATE") == Some(LookerDateTime) by {
      assert "DATE" in SparkTypes();
    }
  }

  /** Postgres' `TIMESTAMP` is a timestamp. */
  lemma PostgresTimestampIsTimestamp()
    ensures MapAdapterTypeToLooker(Postgres, "TIMESTAMP") == Some(LookerTimestamp)
  {
    PostgresTimestampKey();
    PostgresTimestampEntry();
  }

  lemma PostgresTimestampKey()
    ensures LookupKey(Postgres, "TIMESTAMP") == "TIMESTAMP"
  {
    var key := "TIMESTAMP";
    assert forall i :: 0 <= i < |key| ==> UpperChar(key[i]) == key[i];
  }

  lemma PostgresTimestampEntry()
    ensures TableGet(Postgres, "TIMESTAMP") == Some(LookerTimestamp)
  {
    assert "TIMESTAMP" in PostgresTypes();
  }

  /** A missing type raises in the code as written, where the guard means it
      to map to None without a warning. */
  lemma NullTypeRaisesAsWritten(adapter: SupportedDbtAdapters)
    ensures MapAdapterTypeToLookerAsWritten(adapter, None).Failure?
    ensures MapColumnType(adapter, None) == None && UnsupportedTypeWarning(adapter, None) == None
  {
  }

  /** The three type lists are disjoint, so no column is both a dimension
      group and a scalar dimension. */
  lemma TypeListsDisjoint()
    ensures LookerDateTimeTypes !! LookerDateTypes
    ensures LookerDateTimeTypes !! LookerScalarTypes
    ensures LookerDateTypes !! LookerScalarTypes
    ensures LookerDateTimeTypes + LookerDateTypes + LookerScalarTypes ==
      {LookerNumber, LookerYesNo, LookerString, LookerDate, LookerDateTime, LookerTimestamp}
  {
  }
}

=== FILE: measures.dfy ===
/**
 * Measures: the four measure maps a column may declare, merged, and the
 * LookML measure each entry becomes.
 */
module Measures {
  import opened Wrappers
  import opened Ascii
  import opened Dicts
  import opened Models
  import opened Descriptions
  import opened Truthiness
  import opened Dimensions
  import opened Comprehensions

  /** A `measure` of the view; an unset optional attribute is absent. */
  datatype LookmlMeasure = LookmlMeasure(
    name: string,
    measureType: LookerMeasureType,
    sql: string,
    description: string,
    filters: Option<seq<FilterDict>>,
    valueFormatName: Option<LookerValueFormatName>,
    groupLabel: Option<string>,
    viewLabel: Option<string>,
    labelText: Option<string>,
    hidden: Option<LookerHiddenType>,
    drillFields: Option<seq<string>>)

  /** `{**measures, **measure, **metrics, **metric}`: every name declared
      under any of the four keys, once, holding the declaration of the last
      map that has it; the names of `measures` come first, in their order,
      then each name first declared under `measure`, `metrics` and `metric`,
      in that order. */
  function MergedMeasures(meta: Dbt2LookerMeta): (r: Dict<Dbt2LookerMeasure>)
    ensures UniqueKeys(r)
    ensures forall k :: k in Keys(r) <==>
      k in Keys(meta.measures) || k in Keys(meta.measure) || k in Keys(meta.metrics) || k in Keys(meta.metric)
    ensures forall k :: (Get(r, k) ==
      LastValue(meta.metric, k).Or(LastValue(meta.metrics, k).Or(LastValue(meta.measure, k).Or(LastValue(meta.measures, k)))))
    ensures Keys(r) ==
      AppendNew(AppendNew(AppendNew(AppendNew([], Keys(meta.measures)), Keys(meta.measure)), Keys(meta.metrics)), Keys(meta.metric))
    ensures UniqueKeys(meta.measures) ==> Keys(meta.measures) <= Keys(r)
  {
    var empty: Dict<Dbt2LookerMeasure> := [];
    var m1 := PutAll(empty, meta.measures);
    var m2 := PutAll(m1, meta.measure);
    var m3 := PutAll(m2, meta.metrics);
    var m4 := PutAll(m3, meta.metric);
    PutAllSpec(empty, meta.measures);
    PutAllSpec(m1, meta.measure);
    PutAllSpec(m2, meta.metrics);
    PutAllSpec(m3, meta.metric);
    assert forall k :: Get(empty, k) == None;
    assert Keys(empty) == [];
    PutAllKeys(empty, meta.measures);
    PutAllKeys(m1, meta.measure);
    PutAllKeys(m2, meta.metrics);
    PutAllKeys(m3, meta.metric);
    assert UniqueKeys(meta.measures) ==> Keys(meta.measures) <= Keys(m4) by {
      if UniqueKeys(meta.measures) {
        FromItemsOfDict(meta.measures);
        assert m1 == meta.measures;
        assert Keys(m1) <= Keys(m2) <= Keys(m3) <= Keys(m4);
      }
    }
    m4
  }

  /** What a dict comprehension over `items` is known to produce. */
  ghost predicate FromItemsFacts(items: FilterDict) {
    && UniqueKeys(FromItems(items))
    && (forall k :: k in Keys(FromItems(items)) <==> k in Keys(items))
    && (forall k :: Get(FromItems(items), k) == LastValue(items, k))
    && (UniqueKeys(items) ==> FromItems(items) == items)
  }

  /** `lookml_measure_filters`: each filter rebuilt as a dict. It keeps the
      filters' number and their names, and a filter that already is a dict
      comes back unchanged. */
  function LookmlMeasureFilters(filters: seq<FilterDict>): (r: seq<FilterDict>)
    ensures |r| == |filters|
    ensures forall i :: 0 <= i < |r| ==> UniqueKeys(r[i])
    ensures forall i, k :: 0 <= i < |r| ==> (k in Keys(r[i]) <==> k in Keys(filters[i]))
    ensures forall i, k :: 0 <= i < |r| ==> Get(r[i], k) == LastValue(filters[i], k)
    ensures forall i :: 0 <= i < |r| && UniqueKeys(filters[i]) ==> r[i] == filters[i]
  {
    assert forall i :: 0 <= i < |filters| ==> FromItemsFacts(filters[i]) by {
      forall i | 0 <= i < |filters| ensures FromItemsFacts(filters[i]) {
        FromItemsSpec(filters[i]);
        if UniqueKeys(filters[i]) {
          FromItemsOfDict(filters[i]);
        }
      }
    }
    seq(|filters|, i requires 0 <= i < |filters| => FromItems(filters[i]))
  }

  /** `lookml_measure_filters` on singular filters, which are all the
      validator lets through, is the identity. */
  lemma MeasureFiltersOfValidated(filters: seq<FilterDict>)
    requires forall i :: 0 <= i < |filters| ==> |filters[i]| == 1
    ensures LookmlMeasureFilters(filters) == filters
  {
    forall i | 0 <= i < |filters| ensures UniqueKeys(filters[i]) {
    }
  }

  /** The description a measure falls back to when neither it nor its column
      has one, e.g. `Count_distinct of user_id`: it starts with a capital, its
      first word lower-cased is the type's value, and it ends `of <column>`. */
  function DefaultMeasureDescription(measureType: LookerMeasureType, columnName: string): (r: string)
    ensures var n := |MeasureTypeName(measureType)|;
      0 < n < |r| && Lower(r[..n]) == MeasureTypeName(measureType) && r[n..] == " of " + columnName
    ensures IsUpperChar(r[0])
  {
    var name := MeasureTypeName(measureType);
    var cap := Capitalize(name);
    var tail := " of " + columnName;
    assert Lower(cap) == name by { LowerCapitalize(name); }
    assert IsUpperChar(cap[0]);
    var r := cap + tail;
    assert r[..|name|] == cap && r[|name|..] == tail;
    r
  }

  /** `lookml_measure`: the measure's own name and type; its sql or the
      column; its description, else the column's, else the generated one; and
      each optional attribute exactly when it is set. */
  function LookmlMeasureOf(name: string, column: DbtModelColumn, measure: Dbt2LookerMeasure): (m: LookmlMeasure)
    ensures m.name == name && m.measureType == measure.measureType
    ensures m.sql == (if IsSet(measure.sql) then measure.sql.value else TableColumn(column.name))
    ensures IndentedBy(m.description, FieldIndent)
    ensures Unindent(m.description, FieldIndent) ==
      (if measure.description != "" then measure.description
       else if column.description != "" then column.description
       else DefaultMeasureDescription(measure.measureType, column.name))
    ensures m.filters.Some? <==> IsNonEmpty(measure.filters)
    ensures m.filters.Some? ==> m.filters.value == LookmlMeasureFilters(measure.filters.value)
    ensures m.valueFormatName == measure.valueFormatName
    ensures m.groupLabel.Some? <==> IsSet(measure.groupLabel)
    ensures m.groupLabel.Some? ==> m.groupLabel == measure.groupLabel
    ensures m.viewLabel.Some? <==> IsSet(measure.viewLabel)
    ensures m.viewLabel.Some? ==> m.viewLabel == measure.viewLabel
    ensures m.labelText.Some? <==> IsSet(measure.labelText)
    ensures m.labelText.Some? ==> m.labelText == measure.labelText
    ensures m.hidden == measure.hidden
    ensures m.drillFields.Some? <==> IsNonEmpty(measure.drillFields)
    ensures m.drillFields.Some? ==> m.drillFields == measure.drillFields
  {
    var description := StrOr(measure.description, StrOr(column.description, DefaultMeasureDescription(measure.measureType, column.name)));
    UnindentIndent(description, FieldIndent);
    IndentedNewlines(description, FieldIndent);
    LookmlMeasure(
      name,
      measure.measureType,
      OrElse(measure.sql, TableColumn(column.name)),
      IndentMultilineDescription(description, FieldIndent),
      if IsNonEmpty(measure.filters) then Some(LookmlMeasureFilters(measure.filters.value)) else None,
      measure.valueFormatName,
      WhenSet(measure.groupLabel),
      WhenSet(measure.viewLabel),
      WhenSet(measure.labelText),
      measure.hidden,
      WhenNonEmpty(measure.drillFields))
  }

  /** The names of a list of measures, in order. */
  function MeasureNames(ms: seq<LookmlMeasure>): (names: seq<string>)
    ensures |names| == |ms|
    ensures forall i :: 0 <= i < |ms| ==> names[i] == ms[i].name
  {
    seq(|ms|, i requires 0 <= i < |ms| => ms[i].name)
  }

  /** The measures one column declares: one per merged name, in the merged
      dict's order, names distinct, each built from the declaration that wins
      the merge. */
  function ColumnMeasures(column: DbtModelColumn): (r: seq<LookmlMeasure>)
    ensures |r| == |MergedMeasures(column.meta)|
    ensures MeasureNames(r) == Keys(MergedMeasures(column.meta))
    ensures forall i, j :: 0 <= i < j < |r| ==> r[i].name != r[j].name
    ensures forall k :: k in MeasureNames(r) <==>
      k in Keys(column.meta.measures) || k in Keys(column.meta.measure) ||
      k in Keys(column.meta.metrics) || k in Keys(column.meta.metric)
    ensures forall i :: 0 <= i < |r| ==>
      Get(MergedMeasures(column.meta), r[i].name).Some? &&
      r[i] == LookmlMeasureOf(r[i].name, column, Get(MergedMeasures(column.meta), r[i].name).value)
  {
    var merged := MergedMeasures(column.meta);
    var r := seq(|merged|, i requires 0 <= i < |merged| => LookmlMeasureOf(merged[i].0, column, merged[i].1));
    forall i | 0 <= i < |r| ensures Get(merged, r[i].name) == Some(merged[i].1) {
      GetItem(merged, i);
    }
    assert MeasureNames(r) == Keys(merged);
    r
  }

  function MeasuresOfColumn(): ((string, DbtModelColumn)) -> seq<LookmlMeasure> {
    (p: (string, DbtModelColumn)) => ColumnMeasures(p.1)
  }

  /** `lookml_measures_from_model`: the measures of every column, column by
      column; a name used on two columns yields two measures. */
  function MeasuresFromModel(columns: Dict<DbtModelColumn>): (r: seq<LookmlMeasure>)
    ensures forall i :: 0 <= i < |r| ==> exists j :: 0 <= j < |columns| && r[i] in ColumnMeasures(columns[j].1)
  {
    FlatMapSource(columns, MeasuresOfColumn());
    FlatMap(columns, MeasuresOfColumn())
  }

  /** Adding a column appends exactly its own measures. */
  lemma {:induction false} MeasuresFromModelSnoc(columns: Dict<DbtModelColumn>, key: string, column: DbtModelColumn)
    ensures MeasuresFromModel(columns + [(key, column)]) == MeasuresFromModel(columns) + ColumnMeasures(column)
  {
    FlatMapSnoc(columns, (key, column), MeasuresOfColumn());
  }

  /** A column without measure annotations contributes no measure. */
  lemma UnannotatedColumnHasNoMeasures(column: DbtModelColumn)
    requires column.meta.measures == [] && column.meta.measure == []
    requires column.meta.metrics == [] && column.meta.metric == []
    ensures ColumnMeasures(column) == []
  {
  }

  /** A column whose `meta` is left at its default declares no measure. */
  lemma DefaultMetaHasNoMeasures(column: DbtModelColumn)
    requires column.meta == DefaultMeta()
    ensures MergedMeasures(column.meta) == [] && ColumnMeasures(column) == []
  {
    UnannotatedColumnHasNoMeasures(column);
  }

  /** A measure that sets only its type emits only its name, type, sql and
      description: its empty filter list is falsy, so no `filters` key. */
  lemma DefaultMeasureOnlyRequiredKeys(name: string, column: DbtModelColumn, t: LookerMeasureType)
    ensures var m := LookmlMeasureOf(name, column, DefaultMeasure(t));
      && m.name == name && m.measureType == t && m.sql == TableColumn(column.name)
      && m.filters.None? && m.valueFormatName.None? && m.groupLabel.None?
      && m.viewLabel.None? && m.labelText.None? && m.hidden.None? && m.drillFields.None?
  {
  }

  /** A name declared under `metric` overrides the same name under `measures`. */
  lemma MetricOverridesMeasures(column: DbtModelColumn, name: string, a: Dbt2LookerMeasure, b: Dbt2LookerMeasure)
    requires column.meta.measures == [(name, a)] && column.meta.measure == []
    requires column.meta.metrics == [] && column.meta.metric == [(name, b)]
    ensures |ColumnMeasures(column)| == 1
    ensures ColumnMeasures(column)[0] == LookmlMeasureOf(name, column, b)
  {
    var none: Dict<Dbt2LookerMeasure> := [];
    assert [(name, a)][1..] == none && [(name, b)][1..] == none;
    assert PutAll(none, [(name, a)]) == PutAll(Put(none, name, a), none) == [(name, a)];
    assert PutAll([(name, a)], [(name, b)]) == PutAll(Put([(name, a)], name, b), none) == [(name, b)];
    assert MergedMeasures(column.meta) == PutAll(PutAll(PutAll(PutAll(none, [(name, a)]), none), none), [(name, b)]);
  }

  /** Measures sharing a name on two columns are both kept. */
  lemma {:induction false} SameNameOnTwoColumns(k1: string, c1: DbtModelColumn, k2: string, c2: DbtModelColumn, name: string)
    requires name in MeasureNames(ColumnMeasures(c1)) && name in MeasureNames(ColumnMeasures(c2))
    ensures exists i, j :: (0 <= i < j < |MeasuresFromModel([(k1, c1), (k2, c2)])| &&
      MeasuresFromModel([(k1, c1), (k2, c2)])[i].name == name && MeasuresFromModel([(k1, c1), (k2, c2)])[j].name == name)
  {
    MeasuresOfTwoColumns(k1, c1, k2, c2);
    NameTwice(ColumnMeasures(c1), ColumnMeasures(c2), name);
  }

  /** Two columns yield the first column's measures, then the second's. */
  lemma MeasuresOfTwoColumns(k1: string, c1: DbtModelColumn, k2: string, c2: DbtModelColumn)
    ensures MeasuresFromModel([(k1, c1), (k2, c2)]) == ColumnMeasures(c1) + ColumnMeasures(c2)
  {
    var f, p, q := MeasuresOfColumn(), (k1, c1), (k2, c2);
    FlatMapAppend([p], [q], f);
    assert [p] + [q] == [p, q] && [p][1..] == [] && [q][1..] == [];
  }

  lemma NameTwice(a: seq<LookmlMeasure>, b: seq<LookmlMeasure>, name: string)
    requires name in MeasureNames(a) && name in MeasureNames(b)
    ensures exists i, j :: 0 <= i < j < |a + b| && (a + b)[i].name == name && (a + b)[j].name == name
  {
    var i :| 0 <= i < |a| && MeasureNames(a)[i] == name;
    var j :| 0 <= j < |b| && MeasureNames(b)[j] == name;
    assert (a + b)[i] == a[i] && (a + b)[|a| + j] == b[j];
  }

  /** A column whose only measure declaration is `name` under `measures`
      yields that one measure. */
  lemma OnlyMeasure(column: DbtModelColumn, name: string, m: Dbt2LookerMeasure)
    requires column.meta.measures == [(name, m)] && column.meta.measure == []
    requires column.meta.metrics == [] && column.meta.metric == []
    ensures ColumnMeasures(column) == [LookmlMeasureOf(name, column, m)]
  {
    var none: Dict<Dbt2LookerMeasure> := [];
    assert [(name, m)][1..] == none;
    assert PutAll(none, [(name, m)]) == PutAll(Put(none, name, m), none) == [(name, m)];
    assert MergedMeasures(column.meta) == PutAll(PutAll(PutAll(PutAll(none, [(name, m)]), none), none), none);
  }

  /** `amount` with one `sum` measure `total_amount` and no description gets
      the generated description `Sum of amount` and reads `${TABLE}.amount`. */
  lemma SumOfAmount(column: DbtModelColumn)
    requires column.name == "amount" && column.description == ""
    requires column.meta == Dbt2LookerMeta([("total_amount", DefaultMeasure(Sum))], [], [], [], DefaultDimension())
    ensures |ColumnMeasures(column)| == 1
    ensures ColumnMeasures(column)[0].name == "total_amount"
    ensures ColumnMeasures(column)[0].sql == "${TABLE}.amount"
    ensures ColumnMeasures(column)[0].description == "Sum of amount"
    ensures ColumnMeasures(column)[0].filters == None
  {
    OnlyMeasure(column, "total_amount", DefaultMeasure(Sum));
    SumOfAmountMeasure(column);
  }

  lemma SumOfAmountMeasure(column: DbtModelColumn)
    requires column.name == "amount" && column.description == ""
    ensures var m := LookmlMeasureOf("total_amount", column, DefaultMeasure(Sum));
      && m.name == "total_amount"
      && m.sql == "${TABLE}.amount"
      && m.description == "Sum of amount"
      && m.filters == None
  {
    assert TableColumn("amount") == "${TABLE}.amount";
    SumOfAmountDescription(column);
  }

  lemma SumOfAmountDescription(column: DbtModelColumn)
    requires column.name == "amount" && column.description == ""
    ensures LookmlMeasureOf("total_amount", column, DefaultMeasure(Sum)).description == "Sum of amount"
  {
    UndescribedMeasure("total_amount", column, DefaultMeasure(Sum));
    SumDescription();
  }

  /** A measure with no description on a column with none gets the generated
      description. */
  lemma UndescribedMeasure(name: string, column: DbtModelColumn, measure: Dbt2LookerMeasure)
    requires measure.description == "" && column.description == ""
    ensures LookmlMeasureOf(name, column, measure).description ==
      IndentMultilineDescription(DefaultMeasureDescription(measure.measureType, column.name), FieldIndent)
  {
  }

  /** The generated description of a `sum` on `amount`, written on one line. */
  lemma SumDescription()
    ensures IndentMultilineDescription(DefaultMeasureDescription(Sum, "amount"), FieldIndent) == "Sum of amount"
  {
    CapitalizeSum();
    DefaultMeasureDescriptionText(Sum, "amount");
    assert "Sum" + " of " + "amount" == "Sum of amount";
    NoNewlineInSumOfAmount();
    IndentSingleLine("Sum of amount", FieldIndent);
  }

  lemma DefaultMeasureDescriptionText(measureType: LookerMeasureType, columnName: string)
    ensures DefaultMeasureDescription(measureType, columnName) == Capitalize(MeasureTypeName(measureType)) + " of " + columnName
  {
  }

  lemma CapitalizeSum()
    ensures Capitalize(MeasureTypeName(Sum)) == "Sum"
  {
    assert Lower("um") == "um" by {
      assert Lower("um")[0] == LowerChar('u');
      assert Lower("um")[1] == LowerChar('m');
    }
  }

  lemma NoNewlineInSumOfAmount()
    ensures '\n' !in "Sum of amount"
  {
    var s := "Sum of amount";
    assert forall i :: 0 <= i < |s| ==> s[i] != '\n';
  }
}

=== FILE: models.dfy ===
/**
 * The input schema of dbt2looker: the enumerations, the records read from
 * dbt's manifest and catalog (with their default values) and the validators
 * that check or rewrite them while the documents are parsed.
 *
 * Fields declared `Optional[str] = ''` (descriptions) are plain strings here:
 * an explicit null is not modelled. `enabled: Optional[bool] = True` is a
 * bool. Every other `Optional[...]` field is an `Option`.
 */
module Models {
  import opened Wrappers
  import opened Ascii
  import opened Dicts

  // ---------------------------------------------------------------- adapters

  datatype SupportedDbtAdapters = BigQuery | Postgres | Redshift | Snowflake | Spark

  /** The adapter's value as it appears in the manifest. */
  function AdapterName(a: SupportedDbtAdapters): string {
    match a
    case BigQuery => "bigquery"
    case Postgres => "postgres"
    case Redshift => "redshift"
    case Snowflake => "snowflake"
    case Spark => "spark"
  }

  /** `SupportedDbtAdapters(v)`: the enum member whose value is `v`, if any. */
  function ParseAdapter(v: string): (r: Option<SupportedDbtAdapters>)
    ensures r.Some? ==> AdapterName(r.value) == v
    ensures forall a :: AdapterName(a) == v ==> r == Some(a)
  {
    if v == "bigquery" then Some(BigQuery)
    else if v == "postgres" then Some(Postgres)
    else if v == "redshift" then Some(Redshift)
    else if v == "snowflake" then Some(Snowflake)
    else if v == "spark" then Some(Spark)
    else None
  }

  /** `UnsupportedDbtAdapterError`, a `ValueError` carrying only its message. */
  datatype UnsupportedDbtAdapterError = UnsupportedDbtAdapterError(message: string)

  function NewUnsupportedDbtAdapterError(wrongValue: string): UnsupportedDbtAdapterError {
    UnsupportedDbtAdapterError(wrongValue + " is not a supported dbt adapter")
  }

  /** The validator of `DbtManifestMetadata.adapter_type`: the value passes
      unchanged exactly when it names one of the five supported adapters;
      anything else raises `UnsupportedDbtAdapterError` naming the value. */
  function AdapterMustBeSupported(v: string): (r: Result<string, UnsupportedDbtAdapterError>)
    ensures r.Success? <==> v in {"bigquery", "postgres", "redshift", "snowflake", "spark"}
    ensures r.Success? ==> r.value == v && ParseAdapter(v).Some?
    ensures r.Failure? ==> r.error.message == v + " is not a supported dbt adapter"
  {
    match ParseAdapter(v)
    case Some(_) => Success(v)
    case None => Failure(NewUnsupportedDbtAdapterError(v))
  }

  // ------------------------------------------------------------ looker enums

  datatype LookerMeasureType =
    | Number | String | Average | AverageDistinct | Count | CountDistinct | List
    | Max | Median | MedianDistinct | Min | Sum | SumDistinct

  /** The enum member's value, e.g. `count_distinct`: a lower-case name that
      starts with a letter. */
  function MeasureTypeName(t: LookerMeasureType): (r: string)
    ensures r != [] && IsLowerChar(r[0]) && IsLower(r)
  {
    match t
    case Number => "number"
    case String => "string"
    case Average => "average"
    case AverageDistinct => "average_distinct"
    case Count => "count"
    case CountDistinct => "count_distinct"
    case List => "list"
    case Max => "max"
    case Median => "median"
    case MedianDistinct => "median_distinct"
    case Min => "min"
    case Sum => "sum"
    case SumDistinct => "sum_distinct"
  }

  datatype LookerJoinType = LeftOuter | FullOuter | Inner | Cross

  datatype LookerJoinRelationship = ManyToOne | ManyToMany | OneToMany | OneToOne

  datatype LookerValueFormatName =
    | Decimal0 | Decimal1 | Decimal2 | Decimal3 | Decimal4
    | Usd0 | Usd | Gbp0 | Gbp | Eur0 | Eur | Id
    | Percent0 | Percent1 | Percent2 | Percent3 | Percent4

  datatype LookerHiddenType = HiddenYes | HiddenNo

  datatype LookerConvertTimezoneType = ConvertYes | ConvertNo

  // ------------------------------------------------------------ annotations

  /** One filter of a measure: a dict from a field name to a filter expression. */
  type FilterDict = Dict<string>

  /** A measure declared in a column's `meta` block. `list_field`,
      `sql_distinct_key` and `value_format` are accepted but never emitted. */
  datatype Dbt2LookerMeasure = Dbt2LookerMeasure(
    measureType: LookerMeasureType,
    filters: Option<seq<FilterDict>>,
    description: string,
    sql: Option<string>,
    valueFormatName: Option<LookerValueFormatName>,
    groupLabel: Option<string>,
    viewLabel: Option<string>,
    labelText: Option<string>,
    hidden: Option<LookerHiddenType>,
    drillFields: Option<seq<string>>,
    listField: Option<string>,
    sqlDistinctKey: Option<string>,
    valueFormat: Option<string>)

  /** A measure of the given type with every other field at its default:
      no filters, an empty description, everything else unset. */
  function DefaultMeasure(t: LookerMeasureType): (m: Dbt2LookerMeasure)
    ensures m.measureType == t && m.filters == Some([]) && m.description == ""
    ensures m.sql.None? && m.valueFormatName.None? && m.groupLabel.None? && m.viewLabel.None?
    ensures m.labelText.None? && m.hidden.None? && m.drillFields.None?
    ensures m.listField.None? && m.sqlDistinctKey.None? && m.valueFormat.None?
  {
    Dbt2LookerMeasure(t, Some([]), "", None, None, None, None, None, None, None, None, None, None)
  }

  const MultipleFilterNamesError := "Multiple filter names provided for a single filter in measure block"

  /** The validator of `Dbt2LookerMeasure.filters`: an absent list passes, and
      so does a list whose every filter dict has exactly one key; a filter with
      no key or with several keys raises a `ValueError`. The list itself is
      returned unchanged. Each filter arrives as a parsed dict, so its keys are
      distinct and `len(f)` is its number of pairs. */
  method FiltersAreSingularDicts(v: Option<seq<FilterDict>>)
    returns (r: Result<Option<seq<FilterDict>>, string>)
    requires v.Some? ==> forall i :: 0 <= i < |v.value| ==> UniqueKeys(v.value[i])
    ensures r.Success? <==> (v.None? || forall i :: 0 <= i < |v.value| ==> |v.value[i]| == 1)
    ensures r.Success? ==> r.value == v
    ensures r.Failure? ==> r.error == MultipleFilterNamesError
  {
    if v.Some? {
      var fs := v.value;
      for i := 0 to |fs|
        invariant forall j :: 0 <= j < i ==> |fs[j]| == 1
      {
        if |fs[i]| != 1 {
          return Failure(MultipleFilterNamesError);
        }
      }
    }
    return Success(v);
  }

  /** The `dimension` block of a column's `meta`, also used for model-level
      dimensions (then `nativeType` is the `type` field). `group_item_label`,
      `primary_key` and `value_format` are accepted but never emitted. */
  datatype Dbt2LookerDimension = Dbt2LookerDimension(
    enabled: bool,
    hidden: Option<LookerHiddenType>,
    name: Option<string>,
    sql: Option<string>,
    description: string,
    valueFormatName: Option<LookerValueFormatName>,
    groupLabel: Option<string>,
    viewLabel: Option<string>,
    labelText: Option<string>,
    nativeType: Option<string>,
    convertTz: Option<LookerConvertTimezoneType>,
    timeframes: Option<seq<string>>,
    suggestions: Option<seq<string>>,
    requiredAccessGrants: Option<seq<string>>,
    groupItemLabel: Option<string>,
    primaryKey: Option<string>,
    valueFormat: Option<string>)

  /** `Dbt2LookerDimension()`: enabled, an empty description, nothing else set. */
  function DefaultDimension(): (d: Dbt2LookerDimension)
    ensures d.enabled && d.description == ""
    ensures d.hidden.None? && d.name.None? && d.sql.None? && d.valueFormatName.None?
    ensures d.groupLabel.None? && d.viewLabel.None? && d.labelText.None? && d.nativeType.None?
    ensures d.convertTz.None? && d.timeframes.None? && d.suggestions.None?
    ensures d.requiredAccessGrants.None? && d.groupItemLabel.None? && d.primaryKey.None?
    ensures d.valueFormat.None?
  {
    Dbt2LookerDimension(true, None, None, None, "", None, None, None, None, None, None, None, None, None, None, None, None)
  }

  /** The `meta` block of a column: four synonymous measure maps and a dimension. */
  datatype Dbt2LookerMeta = Dbt2LookerMeta(
    measures: Dict<Dbt2LookerMeasure>,
    measure: Dict<Dbt2LookerMeasure>,
    metrics: Dict<Dbt2LookerMeasure>,
    metric: Dict<Dbt2LookerMeasure>,
    dimension: Dbt2LookerDimension)

  /** `Dbt2LookerMeta()`: four empty measure maps and the default dimension. */
  function DefaultMeta(): (m: Dbt2LookerMeta)
    ensures Keys(m.measures) == [] && Keys(m.measure) == [] && Keys(m.metrics) == [] && Keys(m.metric) == []
    ensures m.dimension == DefaultDimension()
  {
    Dbt2LookerMeta([], [], [], [], DefaultDimension())
  }

  type DbtModelColumnMeta = Dbt2LookerMeta

  // ------------------------------------------------------------ dbt records

  datatype DbtProjectConfig = DbtProjectConfig(name: string)

  datatype DbtModelColumn = DbtModelColumn(
    name: string,
    description: string,
    dataType: Option<string>,
    meta: DbtModelColumnMeta)

  datatype DbtNode = DbtNode(uniqueId: string, resourceType: string)

  /** A join of the model's explore. */
  datatype Dbt2LookerExploreJoin = Dbt2LookerExploreJoin(
    join: string,
    joinType: LookerJoinType,
    relationship: LookerJoinRelationship,
    sqlOn: Option<string>,
    foreignKey: Option<string>,
    viewLabel: Option<string>)

  /** A join to `join` with the defaults: a left outer, many-to-one join with
      no condition, foreign key or view label. */
  function DefaultJoin(join: string): (j: Dbt2LookerExploreJoin)
    ensures j.join == join && j.joinType == LeftOuter && j.relationship == ManyToOne
    ensures j.sqlOn.None? && j.foreignKey.None? && j.viewLabel.None?
  {
    Dbt2LookerExploreJoin(join, LeftOuter, ManyToOne, None, None, None)
  }

  /** The `meta` block of a model's config. */
  datatype Dbt2LookerModelMeta = Dbt2LookerModelMeta(
    joins: seq<Dbt2LookerExploreJoin>,
    viewName: Option<string>,
    labelText: Option<string>,
    viewLabel: Option<string>,
    dimensions: seq<Dbt2LookerDimension>)

  type DbtModelMeta = Dbt2LookerModelMeta

  datatype DbtModelConfig = DbtModelConfig(meta: Option<DbtModelMeta>)

  datatype DbtModel = DbtModel(
    uniqueId: string,
    resourceType: string,
    relationName: Option<string>,
    dbSchema: string,
    name: string,
    description: string,
    columns: Dict<DbtModelColumn>,
    tags: seq<string>,
    config: Option<DbtModelConfig>)

  /** The generator reads `model.config.meta` without checking for null. */
  predicate HasConfigMeta(model: DbtModel) {
    model.config.Some? && model.config.value.meta.Some?
  }

  function ConfigMeta(model: DbtModel): DbtModelMeta
    requires HasConfigMeta(model)
  {
    model.config.value.meta.value
  }

  datatype DbtManifestMetadata = DbtManifestMetadata(adapterType: string)

  /** A manifest node: a model, or any other node kept untyped. */
  datatype ManifestNode = ModelNode(model: DbtModel) | OtherNode(node: DbtNode)

  datatype DbtManifest = DbtManifest(nodes: Dict<ManifestNode>, metadata: DbtManifestMetadata)

  datatype DbtCatalogNodeMetadata = DbtCatalogNodeMetadata(
    tableType: string,
    dbSchema: string,
    name: string,
    comment: Option<string>,
    owner: Option<string>)

  datatype DbtCatalogNodeColumn = DbtCatalogNodeColumn(
    columnType: string,
    comment: Option<string>,
    index: int,
    name: string)

  datatype DbtCatalogNode = DbtCatalogNode(
    metadata: DbtCatalogNodeMetadata,
    columns: Dict<DbtCatalogNodeColumn>)

  datatype DbtCatalog = DbtCatalog(nodes: Dict<DbtCatalogNode>)

  // --------------------------------------------- case-insensitive column names

  /** The items `(name.lower(), rename(column))` of a column dict, in order. */
  function LowerKeyItems<V>(v: Dict<V>, rename: V -> V): (r: Dict<V>)
    ensures |r| == |v|
    ensures forall i :: 0 <= i < |v| ==> r[i] == (Lower(v[i].0), rename(v[i].1))
  {
    seq(|v|, i requires 0 <= i < |v| => (Lower(v[i].0), rename(v[i].1)))
  }

  /** The lower-cased keys of a column dict, in order, repeats included. */
  function LowerKeys<V>(v: Dict<V>): (ks: seq<string>)
    ensures |ks| == |v|
    ensures forall i :: 0 <= i < |v| ==> ks[i] == Lower(v[i].0)
  {
    seq(|v|, i requires 0 <= i < |v| => Lower(v[i].0))
  }

  /** The dict comprehension shared by both column validators: keys are
      lower-cased, each column is renamed, and when two keys collide after
      lower-casing the later column wins (at the position of the first). */
  function CaseFold<V>(v: Dict<V>, rename: V -> V): (r: Dict<V>)
    ensures UniqueKeys(r)
    ensures Keys(r) == AppendNew([], LowerKeys(v))
    ensures forall k :: k in Keys(r) <==> exists i :: 0 <= i < |v| && Lower(v[i].0) == k
    ensures forall i :: 0 <= i < |r| ==> IsLower(r[i].0)
    ensures forall k :: k in Keys(r) ==>
      exists i :: (0 <= i < |v| && Lower(v[i].0) == k && Get(r, k) == Some(rename(v[i].1))
                   && forall j :: i < j < |v| ==> Lower(v[j].0) != k)
  {
    FoldedKeys(v, rename);
    FoldedValues(v, rename);
    FromItems(LowerKeyItems(v, rename))
  }

  /** The keys of the folded dict: distinct, lower case, and the lowered
      input keys in the order of their first occurrence. */
  lemma FoldedKeys<V>(v: Dict<V>, rename: V -> V)
    ensures UniqueKeys(FromItems(LowerKeyItems(v, rename)))
    ensures Keys(FromItems(LowerKeyItems(v, rename))) == AppendNew([], LowerKeys(v))
    ensures forall k :: k in Keys(FromItems(LowerKeyItems(v, rename))) <==> exists i :: 0 <= i < |v| && Lower(v[i].0) == k
    ensures forall i :: 0 <= i < |FromItems(LowerKeyItems(v, rename))| ==> IsLower(FromItems(LowerKeyItems(v, rename))[i].0)
  {
    var items := LowerKeyItems(v, rename);
    FromItemsSpec(items);
    var r := FromItems(items);
    PutAllKeys([], items);
    assert Keys(items) == LowerKeys(v);
    assert Keys<V>([]) == [];
    forall k ensures k in Keys(r) <==> exists i :: 0 <= i < |v| && Lower(v[i].0) == k {
      assert k in Keys(r) <==> k in LowerKeys(v);
      if k in LowerKeys(v) {
        var i :| 0 <= i < |v| && LowerKeys(v)[i] == k;
        assert Lower(v[i].0) == k;
      }
    }
    forall i | 0 <= i < |r| ensures IsLower(r[i].0) {
      assert Keys(r)[i] == r[i].0;
      assert r[i].0 in Keys(r);
      var j :| 0 <= j < |v| && Lower(v[j].0) == r[i].0;
      LowerIsLower(v[j].0);
    }
  }

  /** Under each key of the folded dict: the renamed value of the last column
      whose name lowers to it. */
  lemma FoldedValues<V>(v: Dict<V>, rename: V -> V)
    ensures forall k :: k in Keys(FromItems(LowerKeyItems(v, rename))) ==>
      exists i :: (0 <= i < |v| && Lower(v[i].0) == k && Get(FromItems(LowerKeyItems(v, rename)), k) == Some(rename(v[i].1))
                   && forall j :: i < j < |v| ==> Lower(v[j].0) != k)
  {
    var items := LowerKeyItems(v, rename);
    FromItemsSpec(items);
    var r := FromItems(items);
    forall k | k in Keys(r)
      ensures exists i :: (0 <= i < |v| && Lower(v[i].0) == k && Get(r, k) == Some(rename(v[i].1))
                           && forall j :: i < j < |v| ==> Lower(v[j].0) != k)
    {
      LastValueIndex(items, k);
      var i :| (0 <= i < |items| && items[i].0 == k && LastValue(items, k) == Some(items[i].1)
                && forall j :: i < j < |items| ==> items[j].0 != k);
      assert Lower(v[i].0) == k && Get(r, k) == Some(rename(v[i].1));
    }
  }

  /** Folding an already folded dict changes nothing, provided renaming twice
      is renaming once. */
  lemma CaseFoldIdempotent<V>(v: Dict<V>, rename: V -> V)
    requires forall x :: rename(rename(x)) == rename(x)
    ensures CaseFold(CaseFold(v, rename), rename) == CaseFold(v, rename)
  {
    var r := CaseFold(v, rename);
    forall i | 0 <= i < |r| ensures LowerKeyItems(r, rename)[i] == r[i] {
      LowerIsLower(r[i].0);
      assert r[i].0 in Keys(r);
      var m :| (0 <= m < |v| && Lower(v[m].0) == r[i].0 && Get(r, r[i].0) == Some(rename(v[m].1))
                && forall j :: m < j < |v| ==> Lower(v[j].0) != r[i].0);
      GetItem(r, i);
    }
    assert LowerKeyItems(r, rename) == r;
    FromItemsOfDict(r);
  }

  function LowerModelColumnName(c: DbtModelColumn): DbtModelColumn {
    c.(name := Lower(c.name))
  }

  function LowerCatalogColumnName(c: DbtCatalogNodeColumn): DbtCatalogNodeColumn {
    c.(name := Lower(c.name))
  }

  /** The `columns` validator of `DbtModel`: keys and column names become
      lower case, the key set is the lower-case image of the input keys, and
      on a collision the later column is kept. */
  function CaseInsensitiveColumnNames(v: Dict<DbtModelColumn>): (r: Dict<DbtModelColumn>)
    ensures UniqueKeys(r)
    ensures Keys(r) == AppendNew([], LowerKeys(v))
    ensures forall k :: k in Keys(r) <==> exists i :: 0 <= i < |v| && Lower(v[i].0) == k
    ensures forall i :: 0 <= i < |r| ==> IsLower(r[i].0) && IsLower(r[i].1.name)
    ensures forall k :: k in Keys(r) ==>
      exists i :: (0 <= i < |v| && Lower(v[i].0) == k && Get(r, k) == Some(LowerModelColumnName(v[i].1))
                   && forall j :: i < j < |v| ==> Lower(v[j].0) != k)
  {
    var r := CaseFold(v, LowerModelColumnName);
    forall i | 0 <= i < |r| ensures IsLower(r[i].1.name) {
      assert r[i].0 in Keys(r);
      var m :| (0 <= m < |v| && Lower(v[m].0) == r[i].0 && Get(r, r[i].0) == Some(LowerModelColumnName(v[m].1))
                && forall j :: m < j < |v| ==> Lower(v[j].0) != r[i].0);
      GetItem(r, i);
      LowerIsLower(v[m].1.name);
    }
    r
  }

  /** The `columns` validator of `DbtCatalogNode`: the same rule as for a
      model's columns. */
  function CatalogCaseInsensitiveColumnNames(v: Dict<DbtCatalogNodeColumn>): (r: Dict<DbtCatalogNodeColumn>)
    ensures UniqueKeys(r)
    ensures Keys(r) == AppendNew([], LowerKeys(v))
    ensures forall k :: k in Keys(r) <==> exists i :: 0 <= i < |v| && Lower(v[i].0) == k
    ensures forall i :: 0 <= i < |r| ==> IsLower(r[i].0) && IsLower(r[i].1.name)
    ensures forall k :: k in Keys(r) ==>
      exists i :: (0 <= i < |v| && Lower(v[i].0) == k && Get(r, k) == Some(LowerCatalogColumnName(v[i].1))
                   && forall j :: i < j < |v| ==> Lower(v[j].0) != k)
  {
    var r := CaseFold(v, LowerCatalogColumnName);
    forall i | 0 <= i < |r| ensures IsLower(r[i].1.name) {
      assert r[i].0 in Keys(r);
      var m :| (0 <= m < |v| && Lower(v[m].0) == r[i].0 && Get(r, r[i].0) == Some(LowerCatalogColumnName(v[m].1))
                && forall j :: m < j < |v| ==> Lower(v[j].0) != r[i].0);
      GetItem(r, i);
      LowerIsLower(v[m].1.name);
    }
    r
  }

  /** Normalising a model's columns twice is normalising them once. */
  lemma CaseInsensitiveColumnNamesIdempotent(v: Dict<DbtModelColumn>)
    ensures CaseInsensitiveColumnNames(CaseInsensitiveColumnNames(v)) == CaseInsensitiveColumnNames(v)
  {
    forall c ensures LowerModelColumnName(LowerModelColumnName(c)) == LowerModelColumnName(c) {
      LowerIdempotent(c.name);
    }
    CaseFoldIdempotent(v, LowerModelColumnName);
  }

  /** Normalising a catalog node's columns twice is normalising them once. */
  lemma CatalogCaseInsensitiveColumnNamesIdempotent(v: Dict<DbtCatalogNodeColumn>)
    ensures CatalogCaseInsensitiveColumnNames(CatalogCaseInsensitiveColumnNames(v)) == CatalogCaseInsensitiveColumnNames(v)
  {
    forall c ensures LowerCatalogColumnName(LowerCatalogColumnName(c)) == LowerCatalogColumnName(c) {
      LowerIdempotent(c.name);
    }
    CaseFoldIdempotent(v, LowerCatalogColumnName);
  }
}

=== FILE: truthiness.dfy ===
/**
 * Python truthiness as the generator uses it: `x or default` and
 * `{...} if x else {}` treat None, the empty string and the empty list alike
 * as "not set".
 */
module Truthiness {
  import opened Wrappers

  predicate IsSet(s: Option<string>) {
    s.Some? && s.value != ""
  }

  predicate IsNonEmpty<T>(xs: Option<seq<T>>) {
    xs.Some? && xs.value != []
  }

  /** `s or default` for an optional string. */
  function OrElse(s: Option<string>, default: string): (r: string)
    ensures IsSet(s) ==> r == s.value
    ensures !IsSet(s) ==> r == default
  {
    if IsSet(s) then s.value else default
  }

  /** `a or b` for two strings that are never None. */
  function StrOr(a: string, b: string): (r: string)
    ensures a != "" ==> r == a
    ensures a == "" ==> r == b
  {
    if a != "" then a else b
  }

  /** An optional string attribute kept only when it is set. */
  function WhenSet(s: Option<string>): (r: Option<string>)
    ensures r.Some? <==> IsSet(s)
    ensures r.Some? ==> r == s
  {
    if IsSet(s) then s else None
  }

  /** An optional list attribute kept only when it is non-empty. */
  function WhenNonEmpty<T>(xs: Option<seq<T>>): (r: Option<seq<T>>)
    ensures r.Some? <==> IsNonEmpty(xs)
    ensures r.Some? ==> r == xs
  {
    if IsNonEmpty(xs) then xs else None
  }
}

=== FILE: views.dfy ===
/**
 * The two LookML documents a dbt model becomes: its view (dimension groups,
 * dimensions, measures and the `details` drill set) and its model file
 * (connection, include and one explore with its joins).
 */
module Views {
  import opened Wrappers
  import opened Models
  import opened LookerTypes
  import opened Descriptions
  import opened Truthiness
  import opened Dimensions
  import opened Measures
  import opened Comprehensions

  /** The drill set of a view. */
  datatype LookmlSet = LookmlSet(name: string, fields: seq<string>)

  /** The `view` of a view file, before it is serialised. */
  datatype LookmlView = LookmlView(
    name: string,
    sqlTableName: Option<string>,
    drillFields: string,
    dimensionGroups: seq<LookmlDimensionGroup>,
    dimensions: seq<LookmlDimension>,
    measures: seq<LookmlMeasure>,
    drillSet: LookmlSet)

  /** A view file: its name and the view it holds. */
  datatype LookViewFile = LookViewFile(filename: string, contents: LookmlView)

  /** A join of an explore; every key is written, unset ones as null. */
  datatype LookmlJoin = LookmlJoin(
    name: string,
    joinType: LookerJoinType,
    relationship: LookerJoinRelationship,
    sqlOn: Option<string>,
    foreignKey: Option<string>,
    viewLabel: Option<string>)

  /** The explore of a model file; an unset label or description is absent. */
  datatype LookmlExplore = LookmlExplore(
    name: string,
    labelText: Option<string>,
    viewLabel: Option<string>,
    description: Option<string>,
    joins: seq<LookmlJoin>)

  /** The contents of a model file, before it is serialised. */
  datatype LookmlModel = LookmlModel(connection: string, includes: string, explore: LookmlExplore)

  /** A model file: its name and the model it holds. */
  datatype LookModelFile = LookModelFile(filename: string, contents: LookmlModel)

  /** An explore is written two spaces deep, so its description lines after
      the first start at four. */
  const ExploreIndent: nat := 4

  /** A dimension group's drill field: its name and its first timeframe,
      joined by an underscore. */
  function GroupDrillField(g: LookmlDimensionGroup): (f: string)
    requires |g.timeframes| > 0
    ensures |f| == |g.name| + 1 + |g.timeframes[0]|
    ensures f[..|g.name|] == g.name && f[|g.name|] == '_' && f[|g.name| + 1..] == g.timeframes[0]
  {
    g.name + "_" + g.timeframes[0]
  }

  /** A group with the default timeframes drills at `<name>_raw`. */
  lemma DefaultGroupDrillsAtRaw(g: LookmlDimensionGroup)
    requires g.timeframes == LookerTimeframes()
    ensures GroupDrillField(g) == g.name + "_raw"
  {
  }

  /** The filter of `dimension_fields`: no `hidden` key, whatever its value would be. */
  predicate IsVisible(d: LookmlDimension) {
    d.optional.hidden.None?
  }

  function KeepVisible(): LookmlDimension -> bool {
    (d: LookmlDimension) => IsVisible(d)
  }

  function BuildName(): LookmlDimension -> string {
    (d: LookmlDimension) => d.name
  }

  /** The `dimension_fields` list: the names of the dimensions without a
      `hidden` attribute, in order and with repeats kept. */
  function VisibleDimensionNames(dimensions: seq<LookmlDimension>): (r: seq<string>)
    ensures |r| <= |dimensions|
    ensures forall n :: n in r <==>
      exists i :: 0 <= i < |dimensions| && IsVisible(dimensions[i]) && dimensions[i].name == n
  {
    CollectSource(dimensions, KeepVisible(), BuildName());
    CollectComplete(dimensions, KeepVisible(), BuildName());
    Collect(dimensions, KeepVisible(), BuildName())
  }

  /** Adding a dimension adds its name at the end exactly when it is visible,
      so the names keep the dimensions' order and repeats. */
  lemma {:induction false} VisibleDimensionNamesSnoc(dimensions: seq<LookmlDimension>, d: LookmlDimension)
    ensures VisibleDimensionNames(dimensions + [d]) ==
      VisibleDimensionNames(dimensions) + (if IsVisible(d) then [d.name] else [])
  {
    CollectSnoc(dimensions, d, KeepVisible(), BuildName());
  }

  /** `lookml_set_of_dimensions`: the set `details`, listing every dimension
      group by its first timeframe and then every dimension not marked hidden. */
  function LookmlSetOfDimensions(dimensions: seq<LookmlDimension>, groups: seq<LookmlDimensionGroup>): (s: LookmlSet)
    requires forall i :: 0 <= i < |groups| ==> |groups[i].timeframes| > 0
    ensures s.name == "details"
    ensures |s.fields| == |groups| + |VisibleDimensionNames(dimensions)|
    ensures forall i :: 0 <= i < |groups| ==> s.fields[i] == GroupDrillField(groups[i])
    ensures s.fields[|groups|..] == VisibleDimensionNames(dimensions)
    ensures forall n :: n in s.fields[|groups|..] <==>
      exists i :: 0 <= i < |dimensions| && IsVisible(dimensions[i]) && dimensions[i].name == n
  {
    var groupFields := seq(|groups|, i requires 0 <= i < |groups| => GroupDrillField(groups[i]));
    var s := LookmlSet("details", groupFields + VisibleDimensionNames(dimensions));
    assert s.fields[|groups|..] == VisibleDimensionNames(dimensions);
    s
  }

  /** A dimension marked `hidden: no` is left out of the drill set all the
      same: the set tests for the attribute, not for its value. */
  lemma HiddenNoLeavesSet(d: LookmlDimension)
    requires d.optional.hidden == Some(HiddenNo)
    ensures LookmlSetOfDimensions([d], []).fields == []
  {
    assert [d][1..] == [];
  }

  /** The name of the view and of the explore: the configured `view_name`,
      else the model's name. */
  function ViewName(model: DbtModel): (name: string)
    requires HasConfigMeta(model)
    ensures IsSet(ConfigMeta(model).viewName) ==> name == ConfigMeta(model).viewName.value
    ensures !IsSet(ConfigMeta(model).viewName) ==> name == model.name
  {
    OrElse(ConfigMeta(model).viewName, model.name)
  }

  /** `lookml_view_from_dbt_model`: the view file `<view name>.view.lkml`
      holding the view of the model's table, its dimension groups,
      dimensions, measures and drill set. */
  function LookmlViewFromDbtModel(model: DbtModel, adapter: SupportedDbtAdapters): (f: LookViewFile)
    requires DimensionsAvailable(model, adapter)
    ensures f.filename == ViewName(model) + ".view.lkml"
    ensures f.contents.name == ViewName(model)
    ensures f.contents.sqlTableName == model.relationName
    ensures f.contents.drillFields == "[details*]"
    ensures f.contents.dimensionGroups == DimensionGroupsFromModel(model, adapter)
    ensures f.contents.dimensions == DimensionsFromModel(model, adapter)
    ensures f.contents.measures == MeasuresFromModel(model.columns)
    ensures f.contents.drillSet == LookmlSetOfDimensions(f.contents.dimensions, f.contents.dimensionGroups)
  {
    var viewName := ViewName(model);
    var dimensions := DimensionsFromModel(model, adapter);
    var groups := DimensionGroupsFromModel(model, adapter);
    var view := LookmlView(
      viewName,
      model.relationName,
      "[details*]",
      groups,
      dimensions,
      MeasuresFromModel(model.columns),
      LookmlSetOfDimensions(dimensions, groups));
    LookViewFile(viewName + ".view.lkml", view)
  }

  /** Every field of the drill set names a dimension group of the view at its
      first timeframe or a visible dimension of the view. */
  lemma {:induction false} DrillSetNamesViewFields(model: DbtModel, adapter: SupportedDbtAdapters, field: string)
    requires DimensionsAvailable(model, adapter)
    requires field in LookmlViewFromDbtModel(model, adapter).contents.drillSet.fields
    ensures var v := LookmlViewFromDbtModel(model, adapter).contents;
      || (exists i :: 0 <= i < |v.dimensionGroups| && field == GroupDrillField(v.dimensionGroups[i]))
      || (exists i :: 0 <= i < |v.dimensions| && v.dimensions[i].optional.hidden.None? && v.dimensions[i].name == field)
  {
    var v := LookmlViewFromDbtModel(model, adapter).contents;
    var fields := v.drillSet.fields;
    var k :| 0 <= k < |fields| && fields[k] == field;
    var n := |v.dimensionGroups|;
    if k >= n {
      assert fields[k] in fields[n..] by {
        assert fields[n..][k - n] == fields[k];
      }
    }
  }

  /** `join.type.value` and the rest of a join, with its foreign key. */
  function LookmlJoinOf(join: Dbt2LookerExploreJoin): (j: LookmlJoin)
    ensures j.name == join.join && j.joinType == join.joinType && j.relationship == join.relationship
    ensures j.sqlOn == join.sqlOn && j.foreignKey == join.foreignKey && j.viewLabel == join.viewLabel
  {
    LookmlJoin(join.join, join.joinType, join.relationship, join.sqlOn, join.foreignKey, join.viewLabel)
  }

  /** The joins of the explore as written: building a join reads the
      attribute `foreig_key`, which no join has, so any join raises. */
  function LookmlJoinsAsWritten(joins: seq<Dbt2LookerExploreJoin>): (r: Result<seq<LookmlJoin>, string>)
    ensures r.Success? <==> joins == []
    ensures r.Success? ==> r.value == []
    ensures r.Failure? ==> r.error == "AttributeError"
  {
    if joins == [] then Success([]) else Failure("AttributeError")
  }

  /** The joins of the explore as intended: one per configured join, in
      order, each carrying that join's attributes. */
  function LookmlJoins(joins: seq<Dbt2LookerExploreJoin>): (r: seq<LookmlJoin>)
    ensures |r| == |joins|
    ensures forall i :: 0 <= i < |r| ==> r[i].name == joins[i].join && r[i].foreignKey == joins[i].foreignKey
    ensures forall i :: 0 <= i < |r| ==> r[i] == LookmlJoinOf(joins[i])
  {
    seq(|joins|, i requires 0 <= i < |joins| => LookmlJoinOf(joins[i]))
  }

  /** The explore of `lookml_model_from_dbt_model` with the intended joins. */
  function LookmlExploreOf(model: DbtModel): (e: LookmlExplore)
    requires HasConfigMeta(model)
    ensures e.name == ViewName(model)
    ensures e.labelText.Some? <==> IsSet(ConfigMeta(model).labelText)
    ensures e.labelText.Some? ==> e.labelText == ConfigMeta(model).labelText
    ensures e.viewLabel.Some? <==> IsSet(ConfigMeta(model).viewLabel)
    ensures e.viewLabel.Some? ==> e.viewLabel == ConfigMeta(model).viewLabel
    ensures e.description.Some? <==> model.description != ""
    ensures e.description.Some? ==> IndentedBy(e.description.value, ExploreIndent)
    ensures e.description.Some? ==> Unindent(e.description.value, ExploreIndent) == model.description
    ensures e.joins == LookmlJoins(ConfigMeta(model).joins)
  {
    var meta := ConfigMeta(model);
    UnindentIndent(model.description, ExploreIndent);
    IndentedNewlines(model.description, ExploreIndent);
    LookmlExplore(
      ViewName(model),
      WhenSet(meta.labelText),
      WhenSet(meta.viewLabel),
      if model.description != "" then Some(IndentMultilineDescription(model.description, ExploreIndent)) else None,
      LookmlJoins(meta.joins))
  }

  /** `lookml_model_from_dbt_model` as intended: the model file
      `<view name>.model.lkml` for the connection, including every view and
      exploring this model's view. */
  function LookmlModelFromDbtModel(model: DbtModel, connectionName: string): (f: LookModelFile)
    requires HasConfigMeta(model)
    ensures f.filename == ViewName(model) + ".model.lkml"
    ensures f.contents.connection == connectionName
    ensures f.contents.includes == "/views/*"
    ensures f.contents.explore == LookmlExploreOf(model)
  {
    LookModelFile(ViewName(model) + ".model.lkml", LookmlModel(connectionName, "/views/*", LookmlExploreOf(model)))
  }

  /** `lookml_model_from_dbt_model` as written: it raises as soon as the model
      configures a join. */
  function LookmlModelFromDbtModelAsWritten(model: DbtModel, connectionName: string): (r: Result<LookModelFile, string>)
    requires HasConfigMeta(model)
    ensures r.Success? <==> ConfigMeta(model).joins == []
  {
    match LookmlJoinsAsWritten(ConfigMeta(model).joins)
    case Failure(e) => Failure(e)
    case Success(joins) =>
      var explore := LookmlExploreOf(model).(joins := joins);
      Success(LookModelFile(ViewName(model) + ".model.lkml", LookmlModel(connectionName, "/views/*", explore)))
  }

  /** The written and the intended model file agree on every model without
      joins, and a single join is enough for the written one to raise. */
  lemma JoinTypoOnlyMattersWithJoins(model: DbtModel, connectionName: string)
    requires HasConfigMeta(model)
    ensures ConfigMeta(model).joins == [] ==>
      LookmlModelFromDbtModelAsWritten(model, connectionName) == Success(LookmlModelFromDbtModel(model, connectionName))
    ensures ConfigMeta(model).joins != [] ==>
      LookmlModelFromDbtModelAsWritten(model, connectionName) == Failure("AttributeError")
  {
  }

  /** A model with one default join to `customers`: the written version raises,
      the intended one yields a left outer, many-to-one join to `customers`. */
  lemma OneJoinRaises(model: DbtModel, connectionName: string)
    requires HasConfigMeta(model) && ConfigMeta(model).joins == [DefaultJoin("customers")]
    ensures LookmlModelFromDbtModelAsWritten(model, connectionName).Failure?
    ensures LookmlModelFromDbtModel(model, connectionName).contents.explore.joins ==
      [LookmlJoin("customers", LeftOuter, ManyToOne, None, None, None)]
  {
  }

  /** The explore of a model's file explores the view of the same model's view file. */
  lemma {:induction false} ExploreNamesTheView(model: DbtModel, adapter: SupportedDbtAdapters, connectionName: string)
    requires DimensionsAvailable(model, adapter)
    ensures LookmlModelFromDbtModel(model, connectionName).contents.explore.name ==
      LookmlViewFromDbtModel(model, adapter).contents.name
  {
  }
}

=== FILE: wrappers.dfy ===
/** Option and Result, the two failure-carrying datatypes the model uses. */
module Wrappers {

  datatype Option<+T> = None | Some(value: T) {
    /** This option when it holds a value, otherwise `other`. */
    function Or(other: Option<T>): Option<T> {
      if this.Some? then this else other
    }
  }

  /** A validator either returns the (possibly rewritten) value or raises an error. */
  datatype Result<+R, +E> = Success(value: R) | Failure(error: E)
}
